=== FILE: README.md ===
# World map core, modelled in Dafny

This project models the pure, sequential core of a WebGL world-map renderer
written in Rust (crates `wmc-core` and `wmc-render`) and proves properties of
that model. It covers:

- coordinate validation (`GeoCoord::new`) and the equirectangular
  (Plate Carrée) projection with its exact inverse;
- marker identifiers, marker construction and validation, and the phase
  bucket;
- `Color::from_hex`, the 6- and 8-digit forms of the hex colour notation of
  CSS Color Module Level 4, section 5.2;
- the fixed-capacity `MarkerBuffer` state machine, its `repr(C)` byte view,
  and `InstanceBuilder::build`;
- the GeoJSON feature-collection normaliser (RFC 7946: positions are
  longitude first per section 3.1.1, geometry types per sections 3.1.2–3.1.8,
  FeatureCollection per section 3.3), with `line_count` and `point_count`;
- vertex flattening in the world renderer (`build_vertices`, `add_line`, and
  the `vertex_count` cast);
- theme validation and the `dark_minimal` preset.

Floating-point values are the abstract datatype `Floats.Float`:
`Finite(real) | NaN | PosInf | NegInf`. It comes with IEEE comparisons, so
NaN compares false. Finite values are exact reals, so `f32`/`f64` rounding
is not modelled. A `GeoCoord` stores reals. Projection arithmetic is exact
real arithmetic, and `mul_add` is an ordinary multiply-add.

Each mutating `MarkerBuffer` method is a function from the old buffer value
to the new one. `Valid` is the invariant `count <= |data| <= capacity`.
`Len`, `IsEmpty` and `Capacity` are the accessors. The renderer's
`&dyn Projection` is a function parameter `GeoCoord -> ProjectedCoord`. The
hash behind `phase` is a parameter `MarkerId -> U64`. The bytes of one `f32`
come from a parameter `Float -> (bv8, bv8, bv8, bv8)`. Error messages are
replaced by tags naming the failed check and the value it saw (`MarkerFault`,
`ThemeFault`, `TopologyFault` in `errors.dfy`). Modules follow the source
files: `Projection`, `Markers` and `Colors` (both from `marker.rs`),
`MarkerBuffers`, `GeoJson` (the parsed input tree), `Topology`,
`WorldRenderer` and `Themes`. `Results`, `Floats`, `Errors` and `Seqs` are
shared helpers.

## Model

| member | source | states |
|---|---|---|
| `Floats.InClosedRangeIsFinite` | crates/wmc-core/src/projection.rs:49 | `(lo..=hi).contains` with any real bounds holds exactly for finite values inside the bounds (never when `lo > hi`), so NaN and the infinities fail it |
| `Projection.NewGeoCoord` | crates/wmc-core/src/projection.rs:44-54 | succeeds iff both inputs are finite and in `[-90,90]` × `[-180,180]`; the stored values are the inputs unchanged; every failure is `InvalidCoordinates` carrying the original inputs |
| `Projection.NewGeoCoordComplete` | crates/wmc-core/src/projection.rs:44-54 | every valid coordinate is produced, unchanged, from its own finite lat/lon |
| `Projection.Project` | crates/wmc-core/src/projection.rs:133-138 | for a valid coordinate and a positive width (height), `x` lies in `[0,width]` (`y` in `[0,height]`) |
| `Projection.Unproject` | crates/wmc-core/src/projection.rs:140-145 | although built without validation, any screen point in `[0,width]×[0,height]` of a positive-size surface gives a coordinate in range |
| `Projection.RoundTrip` | crates/wmc-core/src/projection.rs:133-145 | `unproject(project(c)) == c` exactly, for non-zero width and height |
| `Projection.RoundTripScreen` | crates/wmc-core/src/projection.rs:133-145 | `project(unproject(q)) == q` exactly, for non-zero width and height |
| `Projection.ProjectMonotone` | crates/wmc-core/src/projection.rs:133-137 | east maps right and north maps up: `x` strictly increases with longitude and `y` strictly decreases with latitude |
| `Projection.UnprojectOffScreen` | crates/wmc-core/src/projection.rs:140-145 | a point off the surface (`x = 2·width`) unprojects to an out-of-range coordinate, because `unproject` does not validate |
| `Markers.ValidateId` | crates/wmc-core/src/marker.rs:21-26 | fails iff the id is the empty text, with `InvalidMarkerId`; numeric ids always pass |
| `Markers.NewMarker` | crates/wmc-core/src/marker.rs:65-77 | the id is checked before the coordinates (an empty id wins even with bad coordinates); succeeds iff id and coordinates are acceptable; the result has intensity 1.0, radius 5.0, no colour, no metadata and the given lat/lon |
| `Markers.Validate` | crates/wmc-core/src/marker.rs:84-100 | passes iff the marker is well formed (non-empty id, finite intensity in `[0,1]`, finite radius `> 0`); otherwise returns the first violation in the order id, intensity, radius, always as `InvalidMarkerId` |
| `Markers.NewMarkerIsValid` | crates/wmc-core/src/marker.rs:65-100 | every marker `Marker::new` builds passes `Marker::validate` and has a valid coordinate |
| `Markers.NaNIntensityRejected` | crates/wmc-core/src/marker.rs:87-92 | a NaN intensity is rejected as out of range |
| `Markers.PhaseBucket` | crates/wmc-core/src/marker.rs:114 | `hash % 10000` lies in `[0, 9999]` |
| `Markers.Phase` | crates/wmc-core/src/marker.rs:105-116 | the normalised phase fraction lies in `[0, 1)` |
| `Markers.PhaseDependsOnlyOnId` | crates/wmc-core/src/marker.rs:105-116 | markers with equal ids have equal phases, whatever their other fields |
| `Colors.HexDigitValue` | crates/wmc-core/src/marker.rs:154-173 | a character is a base-16 digit iff it is `0`-`9`, `a`-`f` or `A`-`F`, and its value is below 16 |
| `Colors.HexDigitCaseInsensitive` | crates/wmc-core/src/marker.rs:154-173 | `a`-`f` have the same values as `A`-`F`, namely 10-15 |
| `Colors.TrimLeadingHashes` | crates/wmc-core/src/marker.rs:146 | the result is the longest suffix not starting with `#`, and everything removed is `#` |
| `Colors.ParseByte` | crates/wmc-core/src/marker.rs:154-173 | a group reads iff its first character is a hex digit (or, with the source's sign leniency, `+`) and its second is a hex digit; two hex digits in either case read as `16·high + low`, and `+d` reads as `d` |
| `Colors.Groups` | crates/wmc-core/src/marker.rs:154-173 | on success yields one byte per two characters |
| `Colors.GroupsReadEachPair` | crates/wmc-core/src/marker.rs:154-173 | the split succeeds iff every 2-character group parses, and byte `i` is the reading of group `i` |
| `Colors.Channel` | crates/wmc-core/src/marker.rs:175-180 | `byte / 255` lies in `[0, 1]` |
| `Colors.ParseHexColor` | crates/wmc-core/src/marker.rs:145-181 | the shared parser succeeds iff the stripped text has length 6 or 8 and splits into bytes; failures carry the stripped text; results lie in `[0,1]` |
| `Colors.FromHex` | crates/wmc-core/src/marker.rs:145-181 | succeeds iff the text after the leading `#`s has 6 or 8 characters and each group is a hex digit or `+`, followed by a hex digit; every failure is `ThemeValidationFailed` carrying the stripped text; on success all components lie in `[0,1]` and a 6-digit text has alpha 1 |
| `Colors.FromHexStrict` | crates/wmc-core/src/marker.rs:145-181 | corrected parser: succeeds iff the stripped text has length 6 or 8 and consists of hex digits only; same error and range guarantees |
| `Colors.StrictGroupsAreDigits` | crates/wmc-core/src/marker.rs:154-173 | without the sign leniency a text splits into bytes exactly when every character is a hex digit |
| `Colors.StrictAgreesWithFromHex` | crates/wmc-core/src/marker.rs:145-181 | on every text the strict parser accepts, the source parser gives the same colour |
| `Colors.FromHexToHex` | crates/wmc-core/src/marker.rs:145-181 | parsing `#RRGGBB[AA]` returns each byte divided by 255, with alpha 255 when absent |
| `Colors.FromHexReadsDigits` | crates/wmc-core/src/marker.rs:145-181 | any 6 or 8 hex digits, in either case, parse to the base-16 value of each digit pair over 255, with alpha 1 when there are 6; the strict parser agrees |
| `Colors.LenientAcceptance` | crates/wmc-core/src/marker.rs:145-181 | the shared parser with the sign leniency succeeds iff the text after the leading `#`s has 6 or 8 characters and each group is a hex digit or `+`, followed by a hex digit |
| `Colors.FromHexIgnoresHashes` | crates/wmc-core/src/marker.rs:146 | an extra leading `#` never changes the result |
| `Colors.FromHexRed` | crates/wmc-core/src/marker.rs:145-181 | `#FF0000` gives (1, 0, 0, 1) |
| `Colors.FromHexLowerCaseRed` | crates/wmc-core/src/marker.rs:145-181 | `#ff0000` gives (1, 0, 0, 1), as `#FF0000` does |
| `Colors.FromHexGreenHalfAlpha` | crates/wmc-core/src/marker.rs:145-181 | `#00FF0080` gives (0, 1, 0, 128/255) |
| `Colors.FromHexShortFormRejected` | crates/wmc-core/src/marker.rs:148-152 | the 3-digit form `#ABC` fails with `ThemeValidationFailed` |
| `Colors.FromHexRejectsNonHex` | crates/wmc-core/src/marker.rs:154-165 | `#GG0000` fails: a non-hex digit is rejected |
| `Colors.GroupsSignedHex` | crates/wmc-core/src/marker.rs:154-173 | with the source's leniency each group `+d` reads as the digit `d`; without it the first such group fails |
| `Colors.SignedGroupsAccepted` | crates/wmc-core/src/marker.rs:145-181 | for any hex digits r, g, b, the text `#+r+g+b` is accepted by the source parser as (r/255, g/255, b/255, 1) and rejected by the strict one |
| `Colors.SignedWhiteExample` | crates/wmc-core/src/marker.rs:145-181 | `#+F+F+F` reads as (15/255, 15/255, 15/255, 1) |
| `MarkerBuffers.Visible` | crates/wmc-core/src/marker_buffer.rs:93 | the visible slice is the first `count` elements of the storage |
| `MarkerBuffers.New` | crates/wmc-core/src/marker_buffer.rs:35-41 | a new buffer is valid, empty, shows nothing and has the requested capacity |
| `MarkerBuffers.Len` | crates/wmc-core/src/marker_buffer.rs:45-47 | the length is the number of visible instances and never exceeds the capacity |
| `MarkerBuffers.Capacity` | crates/wmc-core/src/marker_buffer.rs:57-59 | the storage never grows past the capacity |
| `MarkerBuffers.IsEmpty` | crates/wmc-core/src/marker_buffer.rs:51-53 | empty iff the length is 0 |
| `MarkerBuffers.Push` | crates/wmc-core/src/marker_buffer.rs:66-82 | when `count >= capacity` returns `BufferOverflow{count+1, capacity}` and leaves the buffer unchanged; otherwise succeeds, increments `count` by one, and keeps every previously visible instance in place; the newly visible slot holds `x` when `data.len()` equals `count` or `capacity`, but holds the stale `data[count]` when `count < data.len() < capacity` (the pushed instance then lands past the visible prefix); the invariant and the capacity are preserved |
| `MarkerBuffers.PushCorrected` | crates/wmc-core/src/marker_buffer.rs:66-82 | corrected push: same overflow behaviour, and on success the visible prefix grows by exactly the pushed instance |
| `MarkerBuffers.PushAppendsWhenAligned` | crates/wmc-core/src/marker_buffer.rs:74-78 | the source's push appends to the visible prefix whenever `data.len()` equals `count` or `capacity` |
| `MarkerBuffers.Clear` | crates/wmc-core/src/marker_buffer.rs:85-87 | nothing stays visible, and the storage and the capacity are kept |
| `MarkerBuffers.Update` | crates/wmc-core/src/marker_buffer.rs:104-114 | `index >= count` returns `BufferOverflow{index+1, count}` and leaves the buffer unchanged; otherwise only slot `index` changes, `count` and `capacity` stay, and the visible prefix is updated at `index` |
| `MarkerBuffers.Fields` | crates/wmc-core/src/marker_buffer.rs:4-23 | an instance has eight fields |
| `MarkerBuffers.FloatBytes` | crates/wmc-core/src/marker_buffer.rs:4-23 | one field takes four bytes |
| `MarkerBuffers.AsBytes` | crates/wmc-core/src/marker_buffer.rs:92-97 | the byte view has length `32 · count` |
| `MarkerBuffers.AsBytesLayout` | crates/wmc-core/src/marker_buffer.rs:92-97 | byte `j` of field `k` of visible instance `i` sits at offset `32·i + 4·k + j` (`repr(C)`, no padding) |
| `MarkerBuffers.AsBytesIgnoresStaleSlots` | crates/wmc-core/src/marker_buffer.rs:93 | buffers with the same visible prefix have the same byte view |
| `MarkerBuffers.Step` | crates/wmc-core/src/marker_buffer.rs:66-114 | every operation preserves `count <= data.len() <= capacity` and keeps the capacity |
| `MarkerBuffers.Run` | crates/wmc-core/src/marker_buffer.rs:66-114 | every sequence of operations preserves the invariant and the capacity |
| `MarkerBuffers.CorrectedRunMatchesExpected` | crates/wmc-core/src/marker_buffer.rs:66-114 | with the corrected push, the visible prefix after any trace equals the bounded list the trace describes: the instances pushed since the last clear, in order, with updates applied |
| `MarkerBuffers.StaleSlotAfterClear` | crates/wmc-core/src/marker_buffer.rs:74-87 | with capacity 3, the trace push p, push q, clear, push s leaves `[p]` visible under the source's push, which differs from the intended `[s]`; the corrected push gives `[s]` |
| `MarkerBuffers.Build` | crates/wmc-core/src/marker_buffer.rs:132-155 | `x`, `y`, intensity and the phase fraction are copied verbatim; the colour is the marker's when present, else the default |
| `MarkerBuffers.BuildInRange` | crates/wmc-core/src/marker_buffer.rs:132-155 | for a validated marker and in-range colours, the instance's intensity and colour lie in `[0,1]` and its phase fraction in `[0,1)` |
| `Topology.ConvertPosition` | crates/wmc-core/src/topology.rs:61-67 | a position is kept iff it has at least two numbers and `(c[1], c[0])` passes `GeoCoord::new`; then latitude is `c[1]` and longitude `c[0]` |
| `Topology.ConvertPositions` | crates/wmc-core/src/topology.rs:59-68 | never more points than positions, and every kept point is valid |
| `Topology.ConvertPositionsAppend` | crates/wmc-core/src/topology.rs:59-68 | positions are converted independently and in order: converting a concatenation gives the concatenation of the results |
| `Topology.ConvertPositionsSingle` | crates/wmc-core/src/topology.rs:61-67 | one position contributes its coordinate or nothing |
| `Topology.ConvertPositionsAllAccepted` | crates/wmc-core/src/topology.rs:59-68 | when every position is acceptable nothing is dropped and position `i` becomes point `i` |
| `Topology.ConvertLines` | crates/wmc-core/src/topology.rs:72-85 | one output line per input line, line `i` being the conversion of input line `i`, even when it ends up empty |
| `Topology.ConvertPolygons` | crates/wmc-core/src/topology.rs:106-121 | the number of lines is the total ring count of all polygons |
| `Topology.ConvertPolygonsIsFlatten` | crates/wmc-core/src/topology.rs:106-121 | the polygon conversion is the flat map of the per-polygon ring conversion |
| `Topology.ConvertPolygonsIndex` | crates/wmc-core/src/topology.rs:106-121 | ring `j` of polygon `k` becomes line `(rings before polygon k) + j`: all rings of all polygons, in order |
| `Topology.ConvertPolygonsValid` | crates/wmc-core/src/topology.rs:106-121 | every flattened ring holds only valid coordinates |
| `Topology.ConvertLinesPoints` | crates/wmc-core/src/topology.rs:72-85 | converting lines never increases the total number of points |
| `Topology.ConvertPolygonsPoints` | crates/wmc-core/src/topology.rs:106-121 | flattening polygons never increases the total number of points |
| `Topology.LinesOfPoints` | crates/wmc-core/src/topology.rs:151-154 | the points of a feature's lines are its `point_count` summand |
| `Topology.NormaliseLineString` | crates/wmc-core/src/topology.rs:58-70 | a LineString stays a single valid line of its kept positions |
| `Topology.NormaliseLines` | crates/wmc-core/src/topology.rs:71-104 | a MultiLineString's lines, or a Polygon's rings, become one valid line each, line `i` from input line `i`, with no more points than positions |
| `Topology.NormalisePolygons` | crates/wmc-core/src/topology.rs:105-123 | a MultiPolygon becomes one valid MultiLineString of all rings of all polygons, one line per ring |
| `Topology.ParseGeometry` | crates/wmc-core/src/topology.rs:56-132 | fails iff the kind is not LineString, MultiLineString, Polygon or MultiPolygon, with `TopologyParseError`; LineString stays a LineString; MultiLineString and Polygon become a MultiLineString with line `i` from input line (ring) `i`; MultiPolygon becomes one MultiLineString of all rings; the line count equals the input's line or ring count, the point count never exceeds the positions read, and all coordinates are valid |
| `Topology.KeptFeature` | crates/wmc-core/src/topology.rs:43-44 | a feature yields at most one normalised feature, and exactly one iff it has a geometry that parses, namely the parse of that geometry |
| `Topology.CollectFeatures` | crates/wmc-core/src/topology.rs:40-45 | never more features than input features |
| `Topology.CollectFeaturesIsFlatten` | crates/wmc-core/src/topology.rs:40-45 | the collected features are the flat map of the per-feature filter over the input, in order |
| `Topology.CollectFeaturesAppend` | crates/wmc-core/src/topology.rs:40-45 | features are filtered independently and keep their input order |
| `Topology.CollectFeaturesAllSupported` | crates/wmc-core/src/topology.rs:40-45 | when every feature has a supported geometry, none is dropped and feature `i` is the parse of input feature `i` |
| `Topology.CollectFeaturesValid` | crates/wmc-core/src/topology.rs:40-45 | the surviving features hold only valid coordinates |
| `Topology.KeptFeaturePoints` | crates/wmc-core/src/topology.rs:43-44 | a surviving feature has no more points than its geometry has positions; a feature without geometry or with an unsupported one contributes nothing |
| `Topology.FromGeoJson` | crates/wmc-core/src/topology.rs:39-53 | fails iff the document is not a FeatureCollection, with `TopologyParseError`; on success the features are exactly the input features whose geometry is present and parses, each normalised, in input order; the topology is valid |
| `Topology.LineCount` | crates/wmc-core/src/topology.rs:136-144 | the line count equals the number of lines in feature-then-line order |
| `Topology.PointCount` | crates/wmc-core/src/topology.rs:148-156 | the point count equals the total length of those lines |
| `Topology.PointCountBounded` | crates/wmc-core/src/topology.rs:39-156 | the normalised topology's point count never exceeds the number of positions in the input's line-bearing geometries |
| `Topology.AllLinesIsFlatten` | crates/wmc-core/src/topology.rs:136-156 | the lines of a topology are the flat map of each feature's lines |
| `Topology.AllLinesAppend` | crates/wmc-core/src/topology.rs:136-156 | the lines of concatenated feature lists are the concatenated lines |
| `Topology.OneLineStringExample` | crates/wmc-core/src/topology.rs:39-156 | one LineString of three good points gives `line_count == 1` and `point_count == 3` |
| `Topology.OneRingPolygonExample` | crates/wmc-core/src/topology.rs:88-156 | one Polygon with one four-point ring gives `line_count == 1` and `point_count == 4` |
| `WorldRenderer.LineVertices` | crates/wmc-render/src/world_renderer.rs:129-139 | a line contributes exactly `4·max(len−1, 0)` floats |
| `WorldRenderer.LineVerticesSegment` | crates/wmc-render/src/world_renderer.rs:130-137 | floats `4i..4i+4` are `project(points[i]).x, .y, project(points[i+1]).x, .y` |
| `WorldRenderer.AddLine` | crates/wmc-render/src/world_renderer.rs:129-139 | appends to the vertex list exactly the line's segment floats, `4·max(len−1, 0)` of them |
| `WorldRenderer.LinesVertices` | crates/wmc-render/src/world_renderer.rs:108-126 | a list of lines gives four floats per segment, and at most four per point |
| `WorldRenderer.LinesVerticesIsFlatten` | crates/wmc-render/src/world_renderer.rs:108-126 | the floats of a list of lines are the flat map of the per-line floats |
| `WorldRenderer.LinesVerticesAppend` | crates/wmc-render/src/world_renderer.rs:108-126 | the floats of concatenated line lists are the concatenated floats, so each line's segments stay together |
| `WorldRenderer.AddFeature` | crates/wmc-render/src/world_renderer.rs:113-123 | one feature appends the floats of its lines, in line order |
| `WorldRenderer.BuildVertices` | crates/wmc-render/src/world_renderer.rs:108-126 | the output is the concatenation, in feature order and then line order, of `add_line` over every line; its length is four per segment and never exceeds the capacity estimate `point_count·4` |
| `WorldRenderer.VertexCount` | crates/wmc-render/src/world_renderer.rs:45 | `(n/2) as i32` lies in the `i32` range, is congruent to `n/2` modulo 2^32, and equals `n/2` whenever that fits |
| `WorldRenderer.VertexCountOfBuild` | crates/wmc-render/src/world_renderer.rs:45 | the float count is a multiple of 4, and `(len/2) as i32` is twice the segment count while that fits in an `i32` |
| `WorldRenderer.LineVerticesOnScreen` | crates/wmc-render/src/world_renderer.rs:129-139 | with the equirectangular projection of a positive-size surface, a valid line's floats alternate between `[0,width]` and `[0,height]` |
| `Themes.Validate` | crates/wmc-core/src/theme.rs:44-64 | passes iff the name is non-empty, `contour_width` is finite and `> 0`, and `marker_glow` is finite and `>= 0` (zero allowed); otherwise returns the first failure in the order name, width, glow, as `ThemeValidationFailed` |
| `Themes.ValidateIgnoresAppearance` | crates/wmc-core/src/theme.rs:44-64 | the result depends only on name, contour width and glow; colours and grain are never examined |
| `Themes.DarkMinimal` | crates/wmc-core/src/theme.rs:27-37 | the preset passes `validate` |
| `Themes.DarkMinimalColorsInRange` | crates/wmc-core/src/theme.rs:27-37 | the preset's colours lie in `[0,1]` |

## Left out

- WebGL plumbing: `program.rs`, `context.rs`, `buffer.rs`, `shaders.rs`, `wmc-render/src/lib.rs`, and the GL calls in `WorldRenderer::new` and `draw`. They are thin wrappers over `web_sys`, and the driver decides every compile, link and allocation outcome.
- The wasm host component (`wmc-component`). It is browser glue with an embedded asset and `JsValue` error marshalling.
- The Mercator projection. Its `tan`/`ln`/`exp`/`atan` round trip holds only to within a floating-point tolerance, which exact reals cannot state.
- Projection.Unproject: requires non-zero width and height. With a zero dimension the source divides by zero and returns NaN or an infinity, which the real-valued `GeoCoord` cannot hold. Non-finite widths and heights are not modelled either.
- Markers.Phase: returns the normalised fraction `(hash % 10000) / 10000`, not that fraction times `TAU`. The hash (`DefaultHasher`, SipHash) is a parameter, so the spread of phases over many ids is not stated.
- MarkerBuffers.BuildInRange: states the phase as the fraction in `[0,1)`. The source stores `phase()`, the fraction times `TAU`, which lies in `[0, 2π)`; `MarkerBuffers.Build` copies the fraction, for the same reason as `Markers.Phase`.
- Colors.FromHex: requires an ASCII string. On non-ASCII input the source's byte-length check and `[0..2]` slicing work on UTF-8 bytes and can panic.
- GeoJSON text parsing (the `geojson` crate) and its syntax-error path. The input is an already-parsed `GeoJson.Document`, holding only the fields the normaliser reads.
- Float rounding: the `f64 → f32` casts in `add_line`, `f32::from(u8) / 255.0`, and the `f32` phase arithmetic are exact in the model.
- The unsafe pointer casts in `as_bytes` and `WorldRenderer::new`. They are modelled as sequence views with the `repr(C)` length and offset arithmetic. The bit pattern of each float is an abstract 4-byte encoding parameter.
- `usize` overflow in `count + 1`, `index + 1` and the `line_count`/`point_count` sums. Integers are unbounded. The `as i32` wrap-around of `vertex_count` is modelled.
- `Color::rgba` and `InstanceBuilder::new` are plain constructors, modelled by the datatype constructors `Colors.Color` and `MarkerBuffers.InstanceBuilder`.
- Serde derive defaults and the `Display` strings of `CoreError`. Error variants are mirrored as a datatype, with message text replaced by fault tags.

## Findings

| source | as written | input that shows it | evidently intended | confidence | as-written member | corrected member |
|---|---|---|---|---|---|---|
| crates/wmc-core/src/marker_buffer.rs:74-78 | after `clear()` of a partly filled buffer, `push` appends at `data.len()` instead of writing at `count`, so the visible prefix keeps a stale instance | capacity 3: push p, push q, clear, push s; `as_bytes` then shows `[p]` | the first `count` slots are the instances pushed since the last `clear`, in order (write at `count`) | high, not executed | `MarkerBuffers.StaleSlotAfterClear` | `MarkerBuffers.PushCorrected` |
| crates/wmc-core/src/marker.rs:154-173 | `u8::from_str_radix` accepts a leading `+`, so a group such as `+F` parses as 15 | `#+F+F+F` parses as (15/255, 15/255, 15/255, 1) | only hex digits are accepted, as in the CSS hex colour notation | medium, not executed | `Colors.SignedGroupsAccepted` | `Colors.FromHexStrict` |

=== FILE: colors.dfy ===
/** `Color` and its hex parser `Color::from_hex`, from
    `wmc-core/src/marker.rs`.  The parser reads the 6- and 8-digit forms of
    the hex colour notation of CSS Color Module Level 4, section 5.2. */
module Colors {
  import opened Results
  import opened Floats
  import opened Errors

  /** RGBA, each component meant to lie in `[0, 1]`. */
  datatype Color = Color(r: Float, g: Float, b: Float, a: Float)

  type Byte = x: nat | x < 256

  predicate InUnitRange(f: Float) {
    f.Finite? && 0.0 <= f.value <= 1.0
  }

  predicate ColorInUnitRange(c: Color) {
    InUnitRange(c.r) && InUnitRange(c.g) && InUnitRange(c.b) && InUnitRange(c.a)
  }

  predicate IsAscii(s: string) {
    forall i | 0 <= i < |s| :: s[i] < 128 as char
  }

  /** `str::trim_start_matches('#')`: the longest suffix of `s` that does
      not start with `#`, everything before it being `#`. */
  function TrimLeadingHashes(s: string): (t: string)
    ensures |t| <= |s| && t == s[|s| - |t|..]
    ensures |t| == 0 || t[0] != '#'
    ensures forall i | 0 <= i < |s| - |t| :: s[i] == '#'
    decreases |s|
  {
    if |s| > 0 && s[0] == '#' then TrimLeadingHashes(s[1..]) else s
  }

  /** `char::to_digit(16)`. */
  function HexDigitValue(c: char): (d: Option<nat>)
    ensures d.Some? <==> '0' <= c <= '9' || 'a' <= c <= 'f' || 'A' <= c <= 'F'
    ensures d.Some? ==> d.value < 16
  {
    if '0' <= c <= '9' then Some(c as int - '0' as int)
    else if 'a' <= c <= 'f' then Some(c as int - 'a' as int + 10)
    else if 'A' <= c <= 'F' then Some(c as int - 'A' as int + 10)
    else None
  }

  /** Digits `a`-`f` read like `A`-`F`. */
  lemma HexDigitCaseInsensitive(c: char)
    requires 'a' <= c <= 'f'
    ensures HexDigitValue(c) == HexDigitValue((c as int - 32) as char) == Some(c as int - 'a' as int + 10)
  {
  }

  predicate IsHexDigit(c: char) {
    HexDigitValue(c).Some?
  }

  predicate AllHexDigits(t: string) {
    forall i | 0 <= i < |t| :: IsHexDigit(t[i])
  }

  /** `u8::from_str_radix(pair, 16)` on two characters.  Rust's integer
      parser accepts one leading `+` sign; `allowSign` selects that
      behaviour, and `false` gives the plain two-hex-digit reading. */
  function ParseByte(pair: string, allowSign: bool): (r: Option<Byte>)
    requires |pair| == 2
    ensures r.Some? <==> (IsHexDigit(pair[0]) || (allowSign && pair[0] == '+')) && IsHexDigit(pair[1])
    ensures IsHexDigit(pair[0]) && IsHexDigit(pair[1]) ==>
              r == Some(16 * HexDigitValue(pair[0]).value + HexDigitValue(pair[1]).value)
    ensures allowSign && pair[0] == '+' ==> r == HexDigitValue(pair[1])
  {
    if allowSign && pair[0] == '+' then
      match HexDigitValue(pair[1])
      case Some(l) => Some(l)
      case None => None
    else
      match (HexDigitValue(pair[0]), HexDigitValue(pair[1]))
      case (Some(h), Some(l)) => Some(16 * h + l)
      case _ => None
  }

  /** A byte as a colour component: `f32::from(byte) / 255.0`. */
  function Channel(byte: Byte): (f: Float)
    ensures InUnitRange(f)
  {
    Finite(byte as real / 255.0)
  }

  /** The bytes of the successive 2-character groups of `t`, or `None`
      as soon as one group does not parse. */
  function Groups(t: string, allowSign: bool): (g: Option<seq<Byte>>)
    requires |t| % 2 == 0
    ensures g.Some? ==> 2 * |g.value| == |t|
    decreases |t|
  {
    if |t| == 0 then Some([])
    else
      match (ParseByte(t[..2], allowSign), Groups(t[2..], allowSign))
      case (Some(b), Some(rest)) => Some([b] + rest)
      case _ => None
  }

  /** The split succeeds iff every 2-character group parses, and byte `i`
      is the reading of group `i`. */
  lemma {:induction false} GroupsReadEachPair(t: string, allowSign: bool)
    requires |t| % 2 == 0
    ensures Groups(t, allowSign).Some? <==>
              forall i | 0 <= i < |t| / 2 :: ParseByte(t[2 * i..2 * i + 2], allowSign).Some?
    ensures Groups(t, allowSign).Some? ==>
              forall i | 0 <= i < |t| / 2 :: ParseByte(t[2 * i..2 * i + 2], allowSign) == Some(Groups(t, allowSign).value[i])
    decreases |t|
  {
    if |t| > 0 {
      var u := t[2..];
      GroupsReadEachPair(u, allowSign);
      var n := |t| / 2;
      assert |u| / 2 == n - 1;
      assert t[2 * 0..2 * 0 + 2] == t[..2];
      forall i | 1 <= i < n
        ensures t[2 * i..2 * i + 2] == u[2 * (i - 1)..2 * (i - 1) + 2]
      {
        assert u[2 * (i - 1)] == t[2 * i] && u[2 * (i - 1) + 1] == t[2 * i + 1];
      }
      if Groups(t, allowSign).Some? {
        var g := Groups(t, allowSign).value;
        assert g == [ParseByte(t[..2], allowSign).value] + Groups(u, allowSign).value;
        forall i | 0 <= i < n
          ensures ParseByte(t[2 * i..2 * i + 2], allowSign).Some?
          ensures ParseByte(t[2 * i..2 * i + 2], allowSign) == Some(g[i])
        {
          if i > 0 {
            assert g[i] == Groups(u, allowSign).value[i - 1];
          }
        }
      } else if ParseByte(t[..2], allowSign).Some? {
        assert Groups(u, allowSign).None?;
        var i' :| 0 <= i' < n - 1 && ParseByte(u[2 * i'..2 * i' + 2], allowSign).None?;
        assert ParseByte(t[2 * (i' + 1)..2 * (i' + 1) + 2], allowSign).None?;
      }
    }
  }

  /** The parser shared by `FromHex` and `FromHexStrict`. */
  function ParseHexColor(hex: string, allowSign: bool): (r: Result<Color, CoreError>)
    requires IsAscii(hex)
    ensures var t := TrimLeadingHashes(hex);
            && (r.Ok? <==> (|t| == 6 || |t| == 8) && Groups(t, allowSign).Some?)
            && (r.Err? ==> r.error == ThemeValidationFailed(InvalidHexColor(t)))
            && (r.Ok? ==> ColorInUnitRange(r.value))
            && (r.Ok? && |t| == 6 ==> r.value.a == Finite(1.0))
  {
    var t := TrimLeadingHashes(hex);
    if |t| != 6 && |t| != 8 then
      Err(ThemeValidationFailed(InvalidHexColor(t)))
    else
      match Groups(t, allowSign)
      case None => Err(ThemeValidationFailed(InvalidHexColor(t)))
      case Some(bs) =>
        var alpha := if |t| == 8 then bs[3] else 255;
        Ok(Color(Channel(bs[0]), Channel(bs[1]), Channel(bs[2]), Channel(alpha)))
  }

  /** `Color::from_hex`, as written.  Any number of leading `#` is
      ignored; the rest must be 6 or 8 characters, read as 2-character
      groups; without an alpha group alpha is 255 (that is, 1.0). */
  function FromHex(hex: string): (r: Result<Color, CoreError>)
    requires IsAscii(hex)
    ensures var t := TrimLeadingHashes(hex);
            && (|t| != 6 && |t| != 8 ==> r.Err?)
            && (r.Err? ==> r.error == ThemeValidationFailed(InvalidHexColor(t)))
            && (r.Ok? ==> ColorInUnitRange(r.value))
            && (r.Ok? && |t| == 6 ==> r.value.a == Finite(1.0))
    ensures var t := TrimLeadingHashes(hex);
            r.Ok? <==> (|t| == 6 || |t| == 8) && forall i | 0 <= i < |t| / 2 :: LenientPair(t, i)
  {
    LenientAcceptance(hex);
    ParseHexColor(hex, true)
  }

  /** The parser with the sign leniency removed: every character after
      the leading `#`s must be a hex digit. */
  function FromHexStrict(hex: string): (r: Result<Color, CoreError>)
    requires IsAscii(hex)
    ensures var t := TrimLeadingHashes(hex);
            && (r.Ok? <==> (|t| == 6 || |t| == 8) && AllHexDigits(t))
            && (r.Err? ==> r.error == ThemeValidationFailed(InvalidHexColor(t)))
            && (r.Ok? ==> ColorInUnitRange(r.value))
            && (r.Ok? && |t| == 6 ==> r.value.a == Finite(1.0))
  {
    StrictSizedGroups(TrimLeadingHashes(hex));
    ParseHexColor(hex, false)
  }

  /** On a text of colour length, the strict split succeeds exactly on
      hex digits. */
  lemma StrictSizedGroups(t: string)
    ensures |t| == 6 || |t| == 8 ==> (Groups(t, false).Some? <==> AllHexDigits(t))
  {
    if |t| == 6 || |t| == 8 {
      StrictGroupsAreDigits(t);
    }
  }

  /** Without the sign leniency, a text splits into bytes exactly when it
      consists of hex digits. */
  lemma {:induction false} StrictGroupsAreDigits(t: string)
    requires |t| % 2 == 0
    ensures Groups(t, false).Some? <==> AllHexDigits(t)
    decreases |t|
  {
    if |t| > 0 {
      StrictGroupsAreDigits(t[2..]);
      assert forall i | 2 <= i < |t| :: t[i] == t[2..][i - 2];
    }
  }

  /** Whatever the strict parser accepts, the source parser reads the same. */
  lemma StrictAgreesWithFromHex(hex: string)
    requires IsAscii(hex)
    requires FromHexStrict(hex).Ok?
    ensures FromHex(hex) == FromHexStrict(hex)
  {
    StrictGroupsAgree(TrimLeadingHashes(hex));
  }

  lemma {:induction false} StrictGroupsAgree(t: string)
    requires |t| % 2 == 0 && Groups(t, false).Some?
    ensures Groups(t, true) == Groups(t, false)
    decreases |t|
  {
    if |t| > 0 {
      StrictGroupsAgree(t[2..]);
    }
  }

  // The encoder used as the partner of the parser.

  /** The upper-case hex digit of `d`. */
  function HexChar(d: nat): (c: char)
    requires d < 16
    ensures HexDigitValue(c) == Some(d) && c != '+' && c != '#'
  {
    if d < 10 then ('0' as int + d) as char else ('A' as int + d - 10) as char
  }

  function HexByte(b: Byte): (s: string)
    ensures |s| == 2 && IsAscii(s) && s[0] != '#'
    ensures ParseByte(s, true) == Some(b) && ParseByte(s, false) == Some(b)
  {
    [HexChar(b / 16), HexChar(b % 16)]
  }

  /** The bytes `bs`, two upper-case hex digits each. */
  function HexBytes(bs: seq<Byte>): (s: string)
    ensures |s| == 2 * |bs| && IsAscii(s)
    ensures |bs| > 0 ==> s[0] != '#'
  {
    if |bs| == 0 then "" else HexByte(bs[0]) + HexBytes(bs[1..])
  }

  lemma {:induction false} GroupsHexBytes(bs: seq<Byte>, allowSign: bool)
    ensures Groups(HexBytes(bs), allowSign) == Some(bs)
  {
    if |bs| > 0 {
      var s := HexBytes(bs);
      assert s[..2] == HexByte(bs[0]);
      assert s[2..] == HexBytes(bs[1..]);
      GroupsHexBytes(bs[1..], allowSign);
      assert [bs[0]] + bs[1..] == bs;
    }
  }

  /** `#RRGGBB`, or `#RRGGBBAA` when an alpha byte is given. */
  function ToHex(r: Byte, g: Byte, b: Byte, a: Option<Byte>): (s: string)
    ensures IsAscii(s)
  {
    "#" + HexBytes(if a.Some? then [r, g, b, a.value] else [r, g, b])
  }

  /** Parsing an encoded colour gives back its bytes, each divided by 255;
      a missing alpha reads as 255. */
  lemma FromHexToHex(r: Byte, g: Byte, b: Byte, a: Option<Byte>)
    ensures FromHex(ToHex(r, g, b, a)) == Ok(Color(Channel(r), Channel(g), Channel(b),
                                                  Channel(if a.Some? then a.value else 255)))
    ensures FromHexStrict(ToHex(r, g, b, a)) == FromHex(ToHex(r, g, b, a))
  {
    var bs := if a.Some? then [r, g, b, a.value] else [r, g, b];
    var s := ToHex(r, g, b, a);
    assert s[1..] == HexBytes(bs);
    assert TrimLeadingHashes(s) == HexBytes(bs);
    GroupsHexBytes(bs, true);
    GroupsHexBytes(bs, false);
  }

  /** The byte written by the hex digits at `t[2 * i]` and `t[2 * i + 1]`. */
  function DigitPair(t: string, i: nat): (b: Byte)
    requires 2 * i + 1 < |t| && IsHexDigit(t[2 * i]) && IsHexDigit(t[2 * i + 1])
  {
    16 * HexDigitValue(t[2 * i]).value + HexDigitValue(t[2 * i + 1]).value
  }

  /** Any 6 or 8 hex digits, in either letter case, read as their
      base-16 bytes over 255; without an alpha pair alpha is 1. */
  lemma FromHexReadsDigits(t: string)
    requires |t| == 6 || |t| == 8
    requires AllHexDigits(t)
    ensures IsAscii("#" + t)
    ensures FromHex("#" + t) == FromHexStrict("#" + t)
    ensures FromHex("#" + t) ==
              Ok(Color(Channel(DigitPair(t, 0)), Channel(DigitPair(t, 1)), Channel(DigitPair(t, 2)),
                       Channel(if |t| == 8 then DigitPair(t, 3) else 255)))
  {
    var s := "#" + t;
    assert forall i | 0 <= i < |s| :: s[i] == '#' || s[i] == t[i - 1];
    assert s[1..] == t;
    assert t[0] != '#';
    assert TrimLeadingHashes(s) == t;
    StrictGroupsAreDigits(t);
    StrictGroupsAgree(t);
    GroupsReadEachPair(t, false);
    var g := Groups(t, false).value;
    forall i | 0 <= i < |t| / 2
      ensures g[i] == DigitPair(t, i)
    {
      var pair := t[2 * i..2 * i + 2];
      assert pair[0] == t[2 * i] && pair[1] == t[2 * i + 1];
    }
  }

  /** Group `i` of `t` is what `from_str_radix` accepts: a hex digit or
      a `+` sign, followed by a hex digit. */
  predicate LenientPair(t: string, i: nat)
    requires 2 * i + 1 < |t|
  {
    (IsHexDigit(t[2 * i]) || t[2 * i] == '+') && IsHexDigit(t[2 * i + 1])
  }

  /** The texts the source parser accepts: after the leading `#`s, 6 or 8
      characters whose every group is a hex digit or `+` followed by a hex
      digit. Everything else, `#GG0000` among it, is rejected. */
  lemma LenientAcceptance(hex: string)
    requires IsAscii(hex)
    ensures var t := TrimLeadingHashes(hex);
            ParseHexColor(hex, true).Ok? <==> (|t| == 6 || |t| == 8) && forall i | 0 <= i < |t| / 2 :: LenientPair(t, i)
  {
    var t := TrimLeadingHashes(hex);
    if |t| == 6 || |t| == 8 {
      GroupsReadEachPair(t, true);
      PairsLenient(t);
    }
  }

  /** Reading every group succeeds exactly when every group is lenient. */
  lemma PairsLenient(t: string)
    requires |t| % 2 == 0
    ensures (forall i | 0 <= i < |t| / 2 :: ParseByte(t[2 * i..2 * i + 2], true).Some?) <==>
            (forall i | 0 <= i < |t| / 2 :: LenientPair(t, i))
  {
    if forall i | 0 <= i < |t| / 2 :: ParseByte(t[2 * i..2 * i + 2], true).Some? {
      forall i | 0 <= i < |t| / 2
        ensures LenientPair(t, i)
      {
        PairLenient(t, i);
      }
    }
    if forall i | 0 <= i < |t| / 2 :: LenientPair(t, i) {
      forall i | 0 <= i < |t| / 2
        ensures ParseByte(t[2 * i..2 * i + 2], true).Some?
      {
        PairLenient(t, i);
      }
    }
  }

  lemma PairLenient(t: string, i: nat)
    requires 2 * i + 1 < |t|
    ensures ParseByte(t[2 * i..2 * i + 2], true).Some? <==> LenientPair(t, i)
  {
    var pair := t[2 * i..2 * i + 2];
    assert pair[0] == t[2 * i] && pair[1] == t[2 * i + 1];
  }

  /** A non-hex digit is rejected by the source parser too. */
  lemma FromHexRejectsNonHex()
    ensures FromHex("#GG0000").Err?
  {
    var hex := "#GG0000";
    var t := "GG0000";
    assert hex[1..] == t;
    assert TrimLeadingHashes(hex) == t;
    assert t[..2] == "GG";
    assert ParseByte("GG", true).None?;
    assert Groups(t, true).None?;
    assert FromHex(hex) == ParseHexColor(hex, true);
  }

  /** Lower-case digits: `#ff0000` is red, as `#FF0000` is. */
  lemma FromHexLowerCaseRed()
    ensures FromHex("#ff0000") == Ok(Color(Finite(1.0), Finite(0.0), Finite(0.0), Finite(1.0)))
  {
    var t := "ff0000";
    assert "#ff0000" == "#" + t;
    LowerRedDigits(t);
    FromHexReadsDigits(t);
    assert Channel(255) == Finite(1.0) && Channel(0) == Finite(0.0);
  }

  lemma LowerRedDigits(t: string)
    requires t == "ff0000"
    ensures AllHexDigits(t)
    ensures DigitPair(t, 0) == 255 && DigitPair(t, 1) == 0 && DigitPair(t, 2) == 0
  {
    assert HexDigitValue('f') == Some(15) && HexDigitValue('0') == Some(0);
  }

  /** Extra leading `#` characters never change the result. */
  lemma FromHexIgnoresHashes(hex: string)
    requires IsAscii(hex)
    ensures IsAscii("#" + hex) && FromHex("#" + hex) == FromHex(hex)
  {
    assert ("#" + hex)[1..] == hex;
  }

  lemma FromHexRed()
    ensures FromHex("#FF0000") == Ok(Color(Finite(1.0), Finite(0.0), Finite(0.0), Finite(1.0)))
  {
    assert HexChar(15) == 'F' && HexChar(0) == '0';
    assert HexBytes([0]) == "00" && HexBytes([0, 0]) == "0000";
    assert HexBytes([255, 0, 0]) == "FF0000";
    assert ToHex(255, 0, 0, None) == "#FF0000";
    FromHexToHex(255, 0, 0, None);
  }

  lemma FromHexGreenHalfAlpha()
    ensures FromHex("#00FF0080") == Ok(Color(Finite(0.0), Finite(1.0), Finite(0.0), Finite(128.0 / 255.0)))
  {
    assert HexChar(15) == 'F' && HexChar(8) == '8' && HexChar(0) == '0';
    assert HexBytes([128]) == "80" && HexBytes([0, 128]) == "0080";
    assert HexBytes([255, 0, 128]) == "FF0080";
    assert HexBytes([0, 255, 0, 128]) == "00FF0080";
    assert ToHex(0, 255, 0, Some(128)) == "#00FF0080";
    FromHexToHex(0, 255, 0, Some(128));
  }

  /** The 3-digit short form is not accepted. */
  lemma FromHexShortFormRejected()
    ensures FromHex("#ABC") == Err(ThemeValidationFailed(InvalidHexColor("ABC")))
  {
    assert TrimLeadingHashes("#ABC") == "ABC" by {
      assert "#ABC"[1..] == "ABC";
    }
  }

  /** Each digit `d` written as the signed group `+d`. */
  function SignedHex(ds: seq<Byte>): (s: string)
    requires forall k :: 0 <= k < |ds| ==> ds[k] < 16
    ensures |s| == 2 * |ds| && IsAscii(s)
    ensures |ds| > 0 ==> s[0] == '+'
  {
    if |ds| == 0 then "" else ['+', HexChar(ds[0])] + SignedHex(ds[1..])
  }

  /** With the sign leniency every signed group reads as its digit;
      without it the first group already fails. */
  lemma {:induction false} GroupsSignedHex(ds: seq<Byte>)
    requires forall k :: 0 <= k < |ds| ==> ds[k] < 16
    ensures Groups(SignedHex(ds), true) == Some(ds)
    ensures |ds| > 0 ==> Groups(SignedHex(ds), false).None?
  {
    if |ds| > 0 {
      var s := SignedHex(ds);
      assert s[..2] == ['+', HexChar(ds[0])];
      assert s[2..] == SignedHex(ds[1..]);
      assert ParseByte(s[..2], true) == Some(ds[0]);
      assert !IsHexDigit(s[0]);
      GroupsSignedHex(ds[1..]);
      assert [ds[0]] + ds[1..] == ds;
    }
  }

  /** A sign inside a group is read as part of a number: `#+r+g+b` with
      single hex digits is accepted by the source parser, each group
      giving the digit's value, and rejected by the strict one. */
  lemma SignedGroupsAccepted(r: Byte, g: Byte, b: Byte)
    requires r < 16 && g < 16 && b < 16
    ensures FromHex("#" + SignedHex([r, g, b])) == Ok(Color(Channel(r), Channel(g), Channel(b), Channel(255)))
    ensures FromHexStrict("#" + SignedHex([r, g, b])).Err?
  {
    var t := SignedHex([r, g, b]);
    var s := "#" + t;
    assert s[1..] == t;
    assert TrimLeadingHashes(s) == t;
    GroupsSignedHex([r, g, b]);
  }

  /** `#+F+F+F` in particular reads as (15/255, 15/255, 15/255, 1). */
  lemma SignedWhiteExample()
    ensures FromHex("#+F+F+F") == Ok(Color(Channel(15), Channel(15), Channel(15), Channel(255)))
  {
    assert HexChar(15) == 'F';
    assert SignedHex([]) == "";
    assert SignedHex([15]) == "+F";
    assert [15, 15][1..] == [15] && [15, 15, 15][1..] == [15, 15];
    assert SignedHex([15, 15]) == "+F+F";
    assert SignedHex([15, 15, 15]) == "+F+F+F";
    assert "#" + SignedHex([15, 15, 15]) == "#+F+F+F";
    SignedGroupsAccepted(15, 15, 15);
  }
}

=== FILE: errors.dfy ===
/** The error variants of the map core (`CoreError`).  The human-readable
    message inside the string-carrying variants is represented by a tag
    naming the check that failed and the value it saw. */
module Errors {
  import opened Floats

  /** Why a marker was rejected; the source reports all three under
      `InvalidMarkerId`. */
  datatype MarkerFault =
    | EmptyId
    | IntensityOutOfRange(intensity: Float)
    | InvalidRadius(radius: Float)

  /** Why a theme or a colour literal was rejected. */
  datatype ThemeFault =
    | EmptyName
    | InvalidContourWidth(width: Float)
    | InvalidMarkerGlow(glow: Float)
    /** The offending text, after the leading `#` characters are removed. */
    | InvalidHexColor(hex: string)

  /** Why a topology document was rejected. */
  datatype TopologyFault =
    | ExpectedFeatureCollection
    | UnsupportedGeometryType

  datatype CoreError =
    | InvalidCoordinates(lat: Float, lon: Float)
    | InvalidMarkerId(marker: MarkerFault)
    | ThemeValidationFailed(reason: ThemeFault)
    | TopologyParseError(details: TopologyFault)
    | BufferOverflow(requested: nat, capacity: nat)
}

=== FILE: floats.dfy ===
/** An abstract IEEE 754 value, for both `f32` and `f64`.  Only the
    distinctions the map core observes are kept: finite values (as exact
    reals), NaN and the two infinities.  Rounding is not modelled. */
module Floats {

  datatype Float = Finite(value: real) | NaN | PosInf | NegInf

  /** `f32::is_finite` / `f64::is_finite`. */
  predicate IsFinite(f: Float) {
    f.Finite?
  }

  /** IEEE `a <= b`: false whenever either side is NaN. */
  predicate Le(a: Float, b: Float) {
    match (a, b)
    case (NaN, _) => false
    case (_, NaN) => false
    case (NegInf, _) => true
    case (_, PosInf) => true
    case (PosInf, _) => false
    case (_, NegInf) => false
    case (Finite(x), Finite(y)) => x <= y
  }

  /** IEEE `a < b`: false whenever either side is NaN. */
  predicate Lt(a: Float, b: Float) {
    Le(a, b) && a != b
  }

  /** `(lo..=hi).contains(&f)`, which is `lo <= f && f <= hi`. */
  predicate InClosedRange(f: Float, lo: real, hi: real) {
    Le(Finite(lo), f) && Le(f, Finite(hi))
  }

  /** A range test with finite bounds already rejects NaN and both
      infinities. */
  lemma InClosedRangeIsFinite(f: Float, lo: real, hi: real)
    ensures InClosedRange(f, lo, hi) <==> f.Finite? && lo <= f.value <= hi
  {
  }
}

=== FILE: geojson.dfy ===
/** An already-parsed GeoJSON document (RFC 7946), keeping only what the
    topology normaliser reads.  A position is a list of numbers, longitude
    first (section 3.1.1). */
module GeoJson {
  import opened Results
  import opened Floats

  type Position = seq<Float>

  /** The geometry types of sections 3.1.2 to 3.1.8. */
  datatype GeometryValue =
    | Point(position: Position)
    | MultiPoint(positions: seq<Position>)
    | LineString(coordinates: seq<Position>)
    | MultiLineString(lines: seq<seq<Position>>)
    | Polygon(rings: seq<seq<Position>>)
    | MultiPolygon(polygons: seq<seq<seq<Position>>>)
    | GeometryCollection(geometries: seq<GeometryValue>)

  /** A Feature (section 3.2); its geometry may be null. */
  datatype Feature = Feature(geometry: Option<GeometryValue>)

  /** The three kinds of top-level document; FeatureCollection is
      section 3.3. */
  datatype Document =
    | GeometryDoc(geometry: GeometryValue)
    | FeatureDoc(feature: Feature)
    | FeatureCollection(features: seq<Feature>)
}

=== FILE: marker_buffer.dfy ===
/** The fixed-capacity GPU instance buffer and the instance builder of
    `wmc-core/src/marker_buffer.rs`, as a state machine over an immutable
    buffer value.  Each mutating method becomes a function from the old
    buffer to the new one (and its result, when it has one). */
module MarkerBuffers {
  import opened Results
  import opened Floats
  import opened Errors
  import opened Colors
  import opened Markers
  import opened Seqs

  /** `MarkerInstance`: eight packed 32-bit floats, in this order. */
  datatype MarkerInstance = MarkerInstance(
    x: Float, y: Float, intensity: Float, phase: Float,
    r: Float, g: Float, b: Float, a: Float)

  /** Bytes per float and floats per instance under `repr(C)`. */
  const FloatSize: nat := 4
  const FieldsPerInstance: nat := 8
  const InstanceSize: nat := FloatSize * FieldsPerInstance

  /** The backing vector `data`, the fixed `capacity` and the number of
      visible instances `count`. */
  datatype MarkerBuffer = MarkerBuffer(data: seq<MarkerInstance>, capacity: nat, count: nat)

  /** The invariant every reachable buffer keeps. */
  predicate Valid(b: MarkerBuffer) {
    b.count <= |b.data| <= b.capacity
  }

  /** What a caller can see: the first `count` instances. */
  function Visible(b: MarkerBuffer): (v: seq<MarkerInstance>)
    requires Valid(b)
    ensures |v| == b.count && v <= b.data
  {
    b.data[..b.count]
  }

  /** `MarkerBuffer::new`. */
  function New(capacity: nat): (b: MarkerBuffer)
    ensures Valid(b) && Len(b) == 0 && IsEmpty(b) && Capacity(b) == capacity
    ensures Visible(b) == []
  {
    MarkerBuffer([], capacity, 0)
  }

  /** `len`: the visible instances, never more than the capacity. */
  function Len(b: MarkerBuffer): (n: nat)
    ensures Valid(b) ==> n == |Visible(b)| && n <= Capacity(b)
  {
    b.count
  }

  function IsEmpty(b: MarkerBuffer): (e: bool)
    ensures e <==> Len(b) == 0
  {
    b.count == 0
  }

  /** `capacity`: the storage never grows past it. */
  function Capacity(b: MarkerBuffer): (c: nat)
    ensures Valid(b) ==> |b.data| <= c
  {
    b.capacity
  }

  /** `MarkerBuffer::push`, as written: a full buffer reports an overflow
      and is unchanged; otherwise the instance is appended to `data` while
      `data` is shorter than `capacity`, and written at `count` once it is
      not. */
  function Push(b: MarkerBuffer, x: MarkerInstance): (out: (MarkerBuffer, Result<(), CoreError>))
    requires Valid(b)
    ensures Valid(out.0) && out.0.capacity == b.capacity
    ensures b.count >= b.capacity ==>
            out == (b, Err(BufferOverflow(b.count + 1, b.capacity)))
    ensures b.count < b.capacity ==> out.1 == Ok(()) && out.0.count == b.count + 1
    ensures b.count < b.capacity ==> Visible(out.0)[..b.count] == Visible(b)
    ensures b.count < b.capacity ==>
            Visible(out.0)[b.count] ==
            (if |b.data| == b.count || |b.data| == b.capacity then x else b.data[b.count])
  {
    if b.count >= b.capacity then
      (b, Err(BufferOverflow(b.count + 1, b.capacity)))
    else if |b.data| < b.capacity then
      (MarkerBuffer(b.data + [x], b.capacity, b.count + 1), Ok(()))
    else
      (MarkerBuffer(b.data[b.count := x], b.capacity, b.count + 1), Ok(()))
  }

  /** A push that writes at `count`, reusing a stale slot when there is
      one: the intended behaviour. */
  function PushCorrected(b: MarkerBuffer, x: MarkerInstance): (out: (MarkerBuffer, Result<(), CoreError>))
    requires Valid(b)
    ensures Valid(out.0) && out.0.capacity == b.capacity
    ensures b.count >= b.capacity ==>
            out == (b, Err(BufferOverflow(b.count + 1, b.capacity)))
    ensures b.count < b.capacity ==>
            out.1 == Ok(()) && Visible(out.0) == Visible(b) + [x]
  {
    if b.count >= b.capacity then
      (b, Err(BufferOverflow(b.count + 1, b.capacity)))
    else if b.count < |b.data| then
      var d := b.data[b.count := x];
      assert d[..b.count + 1] == b.data[..b.count] + [x];
      (MarkerBuffer(d, b.capacity, b.count + 1), Ok(()))
    else
      var d := b.data + [x];
      assert d[..b.count + 1] == b.data[..b.count] + [x];
      (MarkerBuffer(d, b.capacity, b.count + 1), Ok(()))
  }

  /** The source's push appends the instance to the visible prefix as long
      as the backing vector is exactly as long as the prefix, or full. */
  lemma PushAppendsWhenAligned(b: MarkerBuffer, x: MarkerInstance)
    requires Valid(b) && b.count < b.capacity
    requires |b.data| == b.count || |b.data| == b.capacity
    ensures Visible(Push(b, x).0) == Visible(b) + [x]
  {
    var d := Push(b, x).0.data;
    assert d[..b.count + 1] == b.data[..b.count] + [x];
  }

  /** `MarkerBuffer::clear`: nothing is visible; storage is kept. */
  function Clear(b: MarkerBuffer): (c: MarkerBuffer)
    requires Valid(b)
    ensures Valid(c) && Len(c) == 0 && Visible(c) == []
    ensures c.data == b.data && c.capacity == b.capacity
  {
    MarkerBuffer(b.data, b.capacity, 0)
  }

  /** `MarkerBuffer::update`: an index past the visible prefix reports an
      overflow against `count`; otherwise only slot `index` changes. */
  function Update(b: MarkerBuffer, index: nat, x: MarkerInstance): (out: (MarkerBuffer, Result<(), CoreError>))
    requires Valid(b)
    ensures Valid(out.0)
    ensures index >= b.count ==> out == (b, Err(BufferOverflow(index + 1, b.count)))
    ensures index < b.count ==>
            && out.1 == Ok(())
            && out.0.count == b.count && out.0.capacity == b.capacity
            && |out.0.data| == |b.data| && out.0.data[index] == x
            && forall j | 0 <= j < |b.data| && j != index :: out.0.data[j] == b.data[j]
    ensures index < b.count ==> Visible(out.0) == Visible(b)[index := x]
  {
    if index >= b.count then
      (b, Err(BufferOverflow(index + 1, b.count)))
    else
      (MarkerBuffer(b.data[index := x], b.capacity, b.count), Ok(()))
  }

  // The byte view.

  /** The fields of an instance in memory order. */
  function Fields(m: MarkerInstance): (fs: seq<Float>)
    ensures |fs| == FieldsPerInstance
  {
    [m.x, m.y, m.intensity, m.phase, m.r, m.g, m.b, m.a]
  }

  /** The four bytes of one float under the target's encoding. */
  type F32Encoding = Float -> (bv8, bv8, bv8, bv8)

  function FloatBytes(enc: F32Encoding, f: Float): (bs: seq<bv8>)
    ensures |bs| == FloatSize
  {
    var q := enc(f);
    [q.0, q.1, q.2, q.3]
  }

  function InstanceBytes(enc: F32Encoding, m: MarkerInstance): seq<bv8> {
    var fs := Fields(m);
    Flatten(seq(FieldsPerInstance, k requires 0 <= k < FieldsPerInstance => FloatBytes(enc, fs[k])))
  }

  /** `MarkerBuffer::as_bytes`: the bytes of the visible instances, one
      after the other. */
  function AsBytes(b: MarkerBuffer, enc: F32Encoding): (bytes: seq<bv8>)
    requires Valid(b)
    ensures |bytes| == InstanceSize * Len(b)
  {
    var vis := Visible(b);
    var chunks := seq(|vis|, i requires 0 <= i < |vis| => InstanceBytes(enc, vis[i]));
    forall i | 0 <= i < |chunks|
      ensures |chunks[i]| == InstanceSize
    {
      InstanceBytesLength(enc, vis[i]);
    }
    FlattenUniformLength(chunks, InstanceSize);
    Flatten(chunks)
  }

  lemma InstanceBytesLength(enc: F32Encoding, m: MarkerInstance)
    ensures |InstanceBytes(enc, m)| == InstanceSize
  {
    var fs := Fields(m);
    var chunks := seq(FieldsPerInstance, k requires 0 <= k < FieldsPerInstance => FloatBytes(enc, fs[k]));
    FlattenUniformLength(chunks, FloatSize);
  }

  /** The `repr(C)` layout: byte `j` of field `k` of visible instance `i`
      is at offset `32 * i + 4 * k + j`. */
  lemma AsBytesLayout(b: MarkerBuffer, enc: F32Encoding, i: nat, k: nat, j: nat)
    requires Valid(b) && i < b.count && k < FieldsPerInstance && j < FloatSize
    ensures InstanceSize * i + FloatSize * k + j < |AsBytes(b, enc)|
    ensures AsBytes(b, enc)[InstanceSize * i + FloatSize * k + j] == FloatBytes(enc, Fields(b.data[i])[k])[j]
  {
    var vis := Visible(b);
    var chunks := seq(|vis|, i requires 0 <= i < |vis| => InstanceBytes(enc, vis[i]));
    forall i' | 0 <= i' < |chunks|
      ensures |chunks[i']| == InstanceSize
    {
      InstanceBytesLength(enc, vis[i']);
    }
    FlattenUniform(chunks, InstanceSize, i, FloatSize * k + j);
    var fs := Fields(b.data[i]);
    var inner := seq(FieldsPerInstance, k requires 0 <= k < FieldsPerInstance => FloatBytes(enc, fs[k]));
    FlattenUniform(inner, FloatSize, k, j);
  }

  /** Only the visible prefix reaches the GPU: stale slots past `count` do
      not affect the byte view. */
  lemma AsBytesIgnoresStaleSlots(b: MarkerBuffer, c: MarkerBuffer, enc: F32Encoding)
    requires Valid(b) && Valid(c) && Visible(b) == Visible(c)
    ensures AsBytes(b, enc) == AsBytes(c, enc)
  {
  }

  // Traces of operations and their intended meaning.

  datatype Op = PushOp(x: MarkerInstance) | ClearOp | UpdateOp(index: nat, x: MarkerInstance)

  /** Apply one operation, with `corrected` choosing the push. */
  function Step(b: MarkerBuffer, op: Op, corrected: bool): (c: MarkerBuffer)
    requires Valid(b)
    ensures Valid(c) && c.capacity == b.capacity
  {
    match op
    case PushOp(x) => if corrected then PushCorrected(b, x).0 else Push(b, x).0
    case ClearOp => Clear(b)
    case UpdateOp(i, x) => Update(b, i, x).0
  }

  function Run(b: MarkerBuffer, ops: seq<Op>, corrected: bool): (c: MarkerBuffer)
    requires Valid(b)
    ensures Valid(c) && c.capacity == b.capacity
    decreases |ops|
  {
    if |ops| == 0 then b else Run(Step(b, ops[0], corrected), ops[1..], corrected)
  }

  /** The intended meaning of a trace: a bounded list, where a push onto a
      full list is refused, `clear` empties it and `update` overwrites an
      existing position. */
  function Expected(l: seq<MarkerInstance>, capacity: nat, ops: seq<Op>): seq<MarkerInstance>
    decreases |ops|
  {
    if |ops| == 0 then l
    else
      var l' := match ops[0]
        case PushOp(x) => if |l| < capacity then l + [x] else l
        case ClearOp => []
        case UpdateOp(i, x) => if i < |l| then l[i := x] else l;
      Expected(l', capacity, ops[1..])
  }

  /** With the corrected push, the visible prefix is always exactly the
      bounded list the trace describes: the instances pushed since the
      last `clear`, in order, with updates applied. */
  lemma {:induction false} CorrectedRunMatchesExpected(b: MarkerBuffer, ops: seq<Op>)
    requires Valid(b)
    ensures Visible(Run(b, ops, true)) == Expected(Visible(b), b.capacity, ops)
    decreases |ops|
  {
    if |ops| > 0 {
      var c := Step(b, ops[0], true);
      match ops[0]
      case PushOp(x) =>
        assert Visible(c) == if |Visible(b)| < b.capacity then Visible(b) + [x] else Visible(b);
        CorrectedRunMatchesExpected(c, ops[1..]);
      case ClearOp =>
        CorrectedRunMatchesExpected(c, ops[1..]);
      case UpdateOp(i, x) =>
        assert Visible(c) == if i < |Visible(b)| then Visible(b)[i := x] else Visible(b);
        CorrectedRunMatchesExpected(c, ops[1..]);
    }
  }

  /** The source's push breaks that meaning: with capacity 3, push `p`,
      push `q`, clear, push `s` leaves `p` visible instead of `s`, because
      the append branch writes at `data.len()` rather than at `count`. */
  lemma StaleSlotAfterClear(p: MarkerInstance, q: MarkerInstance, s: MarkerInstance)
    requires p != s
    ensures var ops := [PushOp(p), PushOp(q), ClearOp, PushOp(s)];
            && Visible(Run(New(3), ops, false)) == [p]
            && Expected([], 3, ops) == [s]
            && Visible(Run(New(3), ops, true)) == [s]
            && Visible(Run(New(3), ops, false)) != Expected([], 3, ops)
  {
    var ops := [PushOp(p), PushOp(q), ClearOp, PushOp(s)];
    var b0 := New(3);
    var b1 := Push(b0, p).0;
    var b2 := Push(b1, q).0;
    var b3 := Clear(b2);
    var b4 := Push(b3, s).0;
    assert b4.data == [p, q, s] && b4.count == 1;
    var ops1 := [PushOp(q), ClearOp, PushOp(s)];
    var ops2 := [ClearOp, PushOp(s)];
    var ops3 := [PushOp(s)];
    assert ops[1..] == ops1 && ops1[1..] == ops2 && ops2[1..] == ops3 && ops3[1..] == [];
    assert Run(b3, ops3, false) == b4;
    assert Run(b2, ops2, false) == b4;
    assert Run(b1, ops1, false) == b4;
    assert Run(b0, ops, false) == b4;
    assert Expected([s], 3, []) == [s];
    assert [] + [s] == [s];
    assert Expected([], 3, ops3) == [s];
    assert Expected([p, q], 3, ops2) == [s];
    assert [p] + [q] == [p, q];
    assert Expected([p], 3, ops1) == [s];
    assert [] + [p] == [p];
    assert Expected([], 3, ops) == [s];
    CorrectedRunMatchesExpected(b0, ops);
  }

  // The instance builder.

  /** `InstanceBuilder`, holding the renderer-wide default colour. */
  datatype InstanceBuilder = InstanceBuilder(defaultColor: Color)

  /** `InstanceBuilder::build`: position, intensity and phase are copied;
      the marker's own colour wins over the default. */
  function Build(builder: InstanceBuilder, m: Marker, x: Float, y: Float, hash: MarkerId -> U64): (inst: MarkerInstance)
    ensures inst.x == x && inst.y == y && inst.intensity == m.intensity
    ensures inst.phase == Finite(Phase(m, hash))
    ensures var c := if m.color.Some? then m.color.value else builder.defaultColor;
            inst.r == c.r && inst.g == c.g && inst.b == c.b && inst.a == c.a
  {
    var c := match m.color
      case Some(col) => col
      case None => builder.defaultColor;
    MarkerInstance(x, y, m.intensity, Finite(Phase(m, hash)), c.r, c.g, c.b, c.a)
  }

  /** A validated marker with in-range colours yields an instance whose
      intensity, phase and colour all lie in `[0, 1]` (phase below 1). */
  lemma BuildInRange(builder: InstanceBuilder, m: Marker, x: Float, y: Float, hash: MarkerId -> U64)
    requires Validate(m).Ok? && ColorInUnitRange(builder.defaultColor)
    requires m.color.Some? ==> ColorInUnitRange(m.color.value)
    ensures var inst := Build(builder, m, x, y, hash);
            && InUnitRange(inst.intensity)
            && inst.phase.Finite? && 0.0 <= inst.phase.value < 1.0
            && ColorInUnitRange(Color(inst.r, inst.g, inst.b, inst.a))
  {
  }
}

=== FILE: markers.dfy ===
/** Marker identifiers, markers and their animation phase, from
    `wmc-core/src/marker.rs`. */
module Markers {
  import opened Results
  import opened Floats
  import opened Errors
  import opened Colors
  import Projection

  type U64 = x: nat | x < 0x1_0000_0000_0000_0000

  /** `MarkerId`: a text or an unsigned 64-bit number. */
  datatype MarkerId = StringId(text: string) | NumberId(number: U64)

  /** `serde_json::Value`, the marker's opaque metadata. */
  datatype Json =
    | JNull
    | JBool(b: bool)
    | JNumber(n: Float)
    | JString(s: string)
    | JArray(items: seq<Json>)
    | JObject(members: seq<(string, Json)>)

  datatype Marker = Marker(
    id: MarkerId,
    coord: Projection.GeoCoord,
    intensity: Float,
    color: Option<Color>,
    radius: Float,
    meta: Option<Json>)

  const DefaultIntensity: Float := Finite(1.0)
  const DefaultRadius: Float := Finite(5.0)

  /** `MarkerId::validate`: only the empty text is rejected; numbers are
      always valid. */
  function ValidateId(id: MarkerId): (r: Result<(), CoreError>)
    ensures r.Err? <==> id.StringId? && |id.text| == 0
    ensures r.Err? ==> r.error == InvalidMarkerId(EmptyId)
    ensures id.NumberId? ==> r.Ok?
  {
    match id
    case StringId(s) => if s == "" then Err(InvalidMarkerId(EmptyId)) else Ok(())
    case NumberId(_) => Ok(())
  }

  /** The marker invariant of the data model, stated on plain reals: a
      usable id, intensity in `[0, 1]`, a finite positive radius. */
  predicate WellFormed(m: Marker) {
    && m.id != StringId("")
    && m.intensity.Finite? && 0.0 <= m.intensity.value <= 1.0
    && m.radius.Finite? && m.radius.value > 0.0
  }

  /** `Marker::new`: the id is checked before the coordinates; on success
      every optional field takes its default. */
  function NewMarker(id: MarkerId, lat: Float, lon: Float): (r: Result<Marker, CoreError>)
    ensures id == StringId("") ==> r == Err(InvalidMarkerId(EmptyId))
    ensures id != StringId("") && !Projection.AcceptedLatLon(lat, lon) ==>
            r == Err(InvalidCoordinates(lat, lon))
    ensures r.Ok? <==> id != StringId("") && Projection.AcceptedLatLon(lat, lon)
    ensures r.Ok? ==> && r.value.id == id
                      && Finite(r.value.coord.lat) == lat && Finite(r.value.coord.lon) == lon
                      && r.value.intensity == Finite(1.0) && r.value.radius == Finite(5.0)
                      && r.value.color == None && r.value.meta == None
  {
    var _ :- ValidateId(id);
    var coord :- Projection.NewGeoCoord(lat, lon);
    Ok(Marker(id, coord, DefaultIntensity, None, DefaultRadius, None))
  }

  /** `Marker::validate`: id, then intensity, then radius; the first
      failure is returned, always as `InvalidMarkerId`. */
  function Validate(m: Marker): (r: Result<(), CoreError>)
    ensures r.Ok? <==> WellFormed(m)
    ensures r.Err? ==> r.error.InvalidMarkerId?
    ensures m.id == StringId("") ==> r == Err(InvalidMarkerId(EmptyId))
    ensures m.id != StringId("") && !(m.intensity.Finite? && 0.0 <= m.intensity.value <= 1.0) ==>
            r == Err(InvalidMarkerId(IntensityOutOfRange(m.intensity)))
    ensures m.id != StringId("") && m.intensity.Finite? && 0.0 <= m.intensity.value <= 1.0 &&
            !(m.radius.Finite? && m.radius.value > 0.0) ==>
            r == Err(InvalidMarkerId(InvalidRadius(m.radius)))
  {
    var _ :- ValidateId(m.id);
    if !InClosedRange(m.intensity, 0.0, 1.0) then
      Err(InvalidMarkerId(IntensityOutOfRange(m.intensity)))
    else if Le(m.radius, Finite(0.0)) || !IsFinite(m.radius) then
      Err(InvalidMarkerId(InvalidRadius(m.radius)))
    else
      Ok(())
  }

  /** Every marker `NewMarker` builds passes `Validate`. */
  lemma NewMarkerIsValid(id: MarkerId, lat: Float, lon: Float)
    requires NewMarker(id, lat, lon).Ok?
    ensures Validate(NewMarker(id, lat, lon).value) == Ok(())
    ensures Projection.ValidCoord(NewMarker(id, lat, lon).value.coord)
  {
  }

  /** A NaN intensity is rejected. */
  lemma NaNIntensityRejected(m: Marker)
    requires m.id != StringId("") && m.intensity.NaN?
    ensures Validate(m) == Err(InvalidMarkerId(IntensityOutOfRange(NaN)))
  {
  }

  /** The bucket of the identifier's 64-bit hash, `hash % 10000`.  The hash
      itself (std's `DefaultHasher`) is a parameter. */
  function PhaseBucket(id: MarkerId, hash: MarkerId -> U64): (b: nat)
    ensures b < 10000
  {
    hash(id) % 10000
  }

  /** `Marker::phase` before its scaling by `TAU`: the bucket as a fraction
      of 10000, in `[0, 1)`. */
  function Phase(m: Marker, hash: MarkerId -> U64): (f: real)
    ensures 0.0 <= f < 1.0
  {
    PhaseBucket(m.id, hash) as real / 10000.0
  }

  /** The phase depends on the identifier alone. */
  lemma PhaseDependsOnlyOnId(m: Marker, n: Marker, hash: MarkerId -> U64)
    requires m.id == n.id
    ensures Phase(m, hash) == Phase(n, hash)
  {
  }
}

=== FILE: projection.dfy ===
/** Geographic coordinates and the equirectangular (Plate Carree)
    projection of `wmc-core/src/projection.rs`.  Arithmetic is over the
    reals; a `GeoCoord` only ever holds finite values. */
module Projection {
  import opened Results
  import opened Floats
  import opened Errors

  /** A latitude/longitude pair in degrees. */
  datatype GeoCoord = GeoCoord(lat: real, lon: real)

  /** A point in screen space, in pixels. */
  datatype ProjectedCoord = ProjectedCoord(x: real, y: real)

  /** The invariant `GeoCoord::new` establishes. */
  predicate ValidCoord(c: GeoCoord) {
    -90.0 <= c.lat <= 90.0 && -180.0 <= c.lon <= 180.0
  }

  /** The inputs `GeoCoord::new` accepts, stated on plain reals. */
  predicate AcceptedLatLon(lat: Float, lon: Float) {
    lat.Finite? && lon.Finite? && ValidCoord(GeoCoord(lat.value, lon.value))
  }

  /** `GeoCoord::new`: a finiteness check, then a range check; both report
      the original inputs. */
  function NewGeoCoord(lat: Float, lon: Float): (r: Result<GeoCoord, CoreError>)
    ensures r.Ok? <==> AcceptedLatLon(lat, lon)
    ensures r.Ok? ==> Finite(r.value.lat) == lat && Finite(r.value.lon) == lon
    ensures r.Ok? ==> ValidCoord(r.value)
    ensures r.Err? ==> r.error == InvalidCoordinates(lat, lon)
  {
    if !IsFinite(lat) || !IsFinite(lon) then
      Err(InvalidCoordinates(lat, lon))
    else if !InClosedRange(lat, -90.0, 90.0) || !InClosedRange(lon, -180.0, 180.0) then
      Err(InvalidCoordinates(lat, lon))
    else
      Ok(GeoCoord(lat.value, lon.value))
  }

  /** Every valid coordinate is reachable through `NewGeoCoord`, unchanged. */
  lemma NewGeoCoordComplete(c: GeoCoord)
    requires ValidCoord(c)
    ensures NewGeoCoord(Finite(c.lat), Finite(c.lon)) == Ok(c)
  {
  }

  /** An `EquirectangularProjection` onto a `width` x `height` surface. */
  datatype Equirectangular = Equirectangular(width: real, height: real)

  /** Longitude maps linearly onto `[0, width]` left to right, latitude onto
      `[0, height]` top (north) to bottom (south). */
  function Project(p: Equirectangular, c: GeoCoord): (q: ProjectedCoord)
    ensures ValidCoord(c) && p.width > 0.0 ==> 0.0 <= q.x <= p.width
    ensures ValidCoord(c) && p.height > 0.0 ==> 0.0 <= q.y <= p.height
  {
    ProjectBounds(p, c);
    ProjectedCoord((c.lon + 180.0) / 360.0 * p.width, (90.0 - c.lat) / 180.0 * p.height)
  }

  /** The inverse map; `mul_add` is exact over the reals.  The result is
      built directly, without `NewGeoCoord`. */
  function Unproject(p: Equirectangular, q: ProjectedCoord): (c: GeoCoord)
    requires p.width != 0.0 && p.height != 0.0
    ensures p.width > 0.0 && p.height > 0.0 && 0.0 <= q.x <= p.width && 0.0 <= q.y <= p.height
            ==> ValidCoord(c)
  {
    var u := q.x / p.width;
    var v := q.y / p.height;
    UnitFraction(q.x, p.width);
    UnitFraction(q.y, p.height);
    GeoCoord(v * -180.0 + 90.0, u * 360.0 - 180.0)
  }

  /** `unproject(project(c)) == c` for every coordinate, exactly. */
  lemma RoundTrip(p: Equirectangular, c: GeoCoord)
    requires p.width != 0.0 && p.height != 0.0
    ensures Unproject(p, Project(p, c)) == c
  {
    var q := Project(p, c);
    var u := (c.lon + 180.0) / 360.0;
    var v := (90.0 - c.lat) / 180.0;
    assert q == ProjectedCoord(u * p.width, v * p.height);
    CancelScale(u, p.width);
    CancelScale(v, p.height);
  }

  /** `project(unproject(q)) == q` for every screen point, exactly. */
  lemma RoundTripScreen(p: Equirectangular, q: ProjectedCoord)
    requires p.width != 0.0 && p.height != 0.0
    ensures Project(p, Unproject(p, q)) == q
  {
    var c := Unproject(p, q);
    assert (c.lon + 180.0) / 360.0 == q.x / p.width;
    assert (90.0 - c.lat) / 180.0 == q.y / p.height;
    UncancelScale(q.x, p.width);
    UncancelScale(q.y, p.height);
  }

  /** East is right and north is up: `Project` is strictly increasing in
      longitude and strictly decreasing in latitude. */
  lemma ProjectMonotone(p: Equirectangular, c: GeoCoord, d: GeoCoord)
    requires p.width > 0.0 && p.height > 0.0
    ensures c.lon < d.lon ==> Project(p, c).x < Project(p, d).x
    ensures c.lat < d.lat ==> Project(p, c).y > Project(p, d).y
  {
    if c.lon < d.lon {
      StrictScale((c.lon + 180.0) / 360.0, (d.lon + 180.0) / 360.0, p.width);
    }
    if c.lat < d.lat {
      StrictScale((90.0 - d.lat) / 180.0, (90.0 - c.lat) / 180.0, p.height);
    }
  }

  /** A screen point off the surface unprojects to an out-of-range
      coordinate: `Unproject` does not enforce the `GeoCoord` invariant. */
  lemma UnprojectOffScreen(p: Equirectangular)
    requires p.width > 0.0 && p.height > 0.0
    ensures !ValidCoord(Unproject(p, ProjectedCoord(2.0 * p.width, 0.0)))
  {
    assert 2.0 * p.width / p.width == 2.0;
  }

  // Real-arithmetic steps, kept apart so that each obligation stays small.

  lemma ProjectBounds(p: Equirectangular, c: GeoCoord)
    ensures ValidCoord(c) && p.width > 0.0 ==> 0.0 <= (c.lon + 180.0) / 360.0 * p.width <= p.width
    ensures ValidCoord(c) && p.height > 0.0 ==> 0.0 <= (90.0 - c.lat) / 180.0 * p.height <= p.height
  {
    UnitCoords(c);
    ScaleUnitInterval((c.lon + 180.0) / 360.0, p.width);
    ScaleUnitInterval((90.0 - c.lat) / 180.0, p.height);
  }

  lemma UnitCoords(c: GeoCoord)
    ensures ValidCoord(c) ==> 0.0 <= (c.lon + 180.0) / 360.0 <= 1.0
    ensures ValidCoord(c) ==> 0.0 <= (90.0 - c.lat) / 180.0 <= 1.0
  {
  }

  lemma ScaleUnitInterval(t: real, s: real)
    ensures 0.0 <= t <= 1.0 && s > 0.0 ==> 0.0 <= t * s <= s
  {
    if 0.0 <= t <= 1.0 && s > 0.0 {
      assert t * s <= 1.0 * s;
    }
  }

  lemma UnitFraction(a: real, s: real)
    requires s != 0.0
    ensures s > 0.0 && 0.0 <= a <= s ==> 0.0 <= a / s <= 1.0
  {
    assert a / s * s == a;
  }

  lemma CancelScale(t: real, s: real)
    requires s != 0.0
    ensures t * s / s == t
  {
  }

  lemma UncancelScale(a: real, s: real)
    requires s != 0.0
    ensures a / s * s == a
  {
  }

  lemma StrictScale(t: real, u: real, s: real)
    requires t < u && s > 0.0
    ensures t * s < u * s
  {
  }
}

=== FILE: results.dfy ===
/** Failure-compatible wrappers standing in for Rust's `Option` and `Result`.
    `Result` supports `:-`, which plays the part of the `?` operator. */
module Results {

  datatype Option<+T> = None | Some(value: T)

  datatype Result<+T, +E> = Ok(value: T) | Err(error: E) {

    predicate IsFailure() {
      Err?
    }

    function PropagateFailure<U>(): Result<U, E>
      requires Err?
    {
      Err(error)
    }

    function Extract(): T
      requires Ok?
    {
      value
    }

    /** Rust's `Result::ok`: forget the error. */
    function ToOption(): Option<T> {
      match this
      case Ok(v) => Some(v)
      case Err(_) => None
    }
  }
}

=== FILE: seqs.dfy ===
/** Sequence helpers shared by the topology, renderer and buffer models.
    Both recursions peel the LAST element, so that they line up with loops
    that append. */
module Seqs {

  /** The concatenation of `xss`, in order. */
  function Flatten<T>(xss: seq<seq<T>>): seq<T>
    decreases |xss|
  {
    if |xss| == 0 then [] else Flatten(xss[..|xss| - 1]) + xss[|xss| - 1]
  }

  /** `f` applied to every element of `xs`, in order. */
  function Map<T, U>(xs: seq<T>, f: T -> U): (ys: seq<U>)
    ensures |ys| == |xs| && forall i | 0 <= i < |xs| :: ys[i] == f(xs[i])
  {
    seq(|xs|, i requires 0 <= i < |xs| => f(xs[i]))
  }

  /** The total length of the sequences in `xss`. */
  function SumLengths<T>(xss: seq<seq<T>>): nat
    decreases |xss|
  {
    if |xss| == 0 then 0 else SumLengths(xss[..|xss| - 1]) + |xss[|xss| - 1]|
  }

  lemma {:induction false} FlattenAppend<T>(a: seq<seq<T>>, b: seq<seq<T>>)
    ensures Flatten(a + b) == Flatten(a) + Flatten(b)
    decreases |b|
  {
    if |b| == 0 {
      assert a + b == a;
    } else {
      var b' := b[..|b| - 1];
      assert (a + b)[..|a + b| - 1] == a + b';
      FlattenAppend(a, b');
    }
  }

  /** Mapping commutes with concatenation. */
  lemma MapAppend<T, U>(a: seq<T>, b: seq<T>, f: T -> U)
    ensures Map(a + b, f) == Map(a, f) + Map(b, f)
  {
  }

  /** The flattened map of a non-empty sequence peels its last element. */
  lemma FlattenMapLast<T, U>(xs: seq<T>, f: T -> seq<U>)
    requires |xs| > 0
    ensures Flatten(Map(xs, f)) == Flatten(Map(xs[..|xs| - 1], f)) + f(xs[|xs| - 1])
  {
    assert Map(xs, f)[..|xs| - 1] == Map(xs[..|xs| - 1], f);
  }

  /** A flat map of a concatenation is the concatenation of the flat maps. */
  lemma FlattenMapAppend<T, U>(a: seq<T>, b: seq<T>, f: T -> seq<U>)
    ensures Flatten(Map(a + b, f)) == Flatten(Map(a, f)) + Flatten(Map(b, f))
  {
    MapAppend(a, b, f);
    FlattenAppend(Map(a, f), Map(b, f));
  }

  lemma {:induction false} SumLengthsAppend<T>(a: seq<seq<T>>, b: seq<seq<T>>)
    ensures SumLengths(a + b) == SumLengths(a) + SumLengths(b)
    decreases |b|
  {
    if |b| == 0 {
      assert a + b == a;
    } else {
      var b' := b[..|b| - 1];
      assert (a + b)[..|a + b| - 1] == a + b';
      SumLengthsAppend(a, b');
    }
  }

  /** If `a` is pointwise no longer than `b`, its total length is no larger. */
  lemma {:induction false} SumLengthsMonotone<T, U>(a: seq<seq<T>>, b: seq<seq<U>>)
    requires |a| == |b|
    requires forall i | 0 <= i < |a| :: |a[i]| <= |b[i]|
    ensures SumLengths(a) <= SumLengths(b)
    decreases |a|
  {
    if |a| > 0 {
      SumLengthsMonotone(a[..|a| - 1], b[..|b| - 1]);
    }
  }

  /** Concatenating chunks of one width `w`: the result has `w * |xss|`
      elements and element `j` of chunk `i` sits at offset `w * i + j`. */
  lemma {:induction false} FlattenUniform<T>(xss: seq<seq<T>>, w: nat, i: nat, j: nat)
    requires forall k | 0 <= k < |xss| :: |xss[k]| == w
    requires i < |xss| && j < w
    ensures |Flatten(xss)| == w * |xss|
    ensures w * i + j < |Flatten(xss)| && Flatten(xss)[w * i + j] == xss[i][j]
    decreases |xss|
  {
    var n := |xss|;
    var init := xss[..n - 1];
    FlattenUniformLength(init, w);
    assert |Flatten(xss)| == w * (n - 1) + w == w * n;
    if i < n - 1 {
      FlattenUniform(init, w, i, j);
    } else {
      assert w * i + j == w * (n - 1) + j;
    }
  }

  lemma {:induction false} FlattenUniformLength<T>(xss: seq<seq<T>>, w: nat)
    requires forall k | 0 <= k < |xss| :: |xss[k]| == w
    ensures |Flatten(xss)| == w * |xss|
    decreases |xss|
  {
    if |xss| > 0 {
      FlattenUniformLength(xss[..|xss| - 1], w);
      assert w * (|xss| - 1) + w == w * |xss|;
    }
  }

  lemma SumLengthsSingle<T>(xs: seq<T>)
    ensures SumLengths([xs]) == |xs|
  {
    assert [xs][..0] == [];
  }
}

=== FILE: theme.dfy ===
/** Theme validation and the dark-minimal preset, from
    `wmc-core/src/theme.rs`. */
module Themes {
  import opened Results
  import opened Floats
  import opened Errors
  import opened Colors

  datatype Theme = Theme(
    name: string,
    background: Color,
    contourColor: Color,
    contourWidth: Float,
    markerColor: Color,
    markerGlow: Float,
    grainIntensity: Float)

  /** The theme invariant on plain reals: a name, a finite positive
      contour width and a finite non-negative glow (zero is allowed). */
  predicate WellFormed(t: Theme) {
    && |t.name| > 0
    && t.contourWidth.Finite? && t.contourWidth.value > 0.0
    && t.markerGlow.Finite? && t.markerGlow.value >= 0.0
  }

  /** `Theme::validate`: name, then contour width, then glow; the first
      failure is returned. */
  function Validate(t: Theme): (r: Result<(), CoreError>)
    ensures r.Ok? <==> WellFormed(t)
    ensures r.Err? ==> r.error.ThemeValidationFailed?
    ensures t.name == "" ==> r == Err(ThemeValidationFailed(EmptyName))
    ensures t.name != "" && !(t.contourWidth.Finite? && t.contourWidth.value > 0.0) ==>
            r == Err(ThemeValidationFailed(InvalidContourWidth(t.contourWidth)))
    ensures t.name != "" && t.contourWidth.Finite? && t.contourWidth.value > 0.0 &&
            !(t.markerGlow.Finite? && t.markerGlow.value >= 0.0) ==>
            r == Err(ThemeValidationFailed(InvalidMarkerGlow(t.markerGlow)))
  {
    if |t.name| == 0 then
      Err(ThemeValidationFailed(EmptyName))
    else if Le(t.contourWidth, Finite(0.0)) || !IsFinite(t.contourWidth) then
      Err(ThemeValidationFailed(InvalidContourWidth(t.contourWidth)))
    else if Lt(t.markerGlow, Finite(0.0)) || !IsFinite(t.markerGlow) then
      Err(ThemeValidationFailed(InvalidMarkerGlow(t.markerGlow)))
    else
      Ok(())
  }

  /** Colours and grain are never examined: themes that agree on name,
      contour width and glow validate alike. */
  lemma ValidateIgnoresAppearance(t: Theme, u: Theme)
    requires t.name == u.name && t.contourWidth == u.contourWidth && t.markerGlow == u.markerGlow
    ensures Validate(t) == Validate(u)
  {
  }

  /** `Theme::dark_minimal`. */
  function DarkMinimal(): (t: Theme)
    ensures Validate(t) == Ok(())
  {
    Theme(
      "dark-minimal",
      Color(Finite(0.043), Finite(0.059), Finite(0.063), Finite(1.0)),
      Color(Finite(0.12), Finite(0.15), Finite(0.16), Finite(0.6)),
      Finite(1.0),
      Color(Finite(0.3), Finite(0.7), Finite(0.8), Finite(1.0)),
      Finite(8.0),
      Finite(0.015))
  }

  /** The preset's colours all lie in `[0, 1]`. */
  lemma DarkMinimalColorsInRange()
    ensures ColorInUnitRange(DarkMinimal().background)
    ensures ColorInUnitRange(DarkMinimal().contourColor)
    ensures ColorInUnitRange(DarkMinimal().markerColor)
  {
  }
}

=== FILE: topology.dfy ===
/** The feature-collection normaliser and its aggregates, from
    `wmc-core/src/topology.rs`.  Polygon and MultiPolygon rings are folded
    into MultiLineString; bad positions and unsupported features are
    dropped one at a time. */
module Topology {
  import opened Results
  import opened Floats
  import opened Errors
  import opened Seqs
  import opened Projection
  import GeoJson

  datatype Geometry =
    | LineString(points: seq<GeoCoord>)
    | MultiLineString(lines: seq<seq<GeoCoord>>)

  datatype Feature = Feature(geometry: Geometry)

  datatype WorldTopology = WorldTopology(features: seq<Feature>)

  /** Every coordinate held by a topology is valid. */
  predicate ValidLine(line: seq<GeoCoord>) {
    forall i | 0 <= i < |line| :: ValidCoord(line[i])
  }

  predicate ValidFeature(f: Feature) {
    match f.geometry
    case LineString(ps) => ValidLine(ps)
    case MultiLineString(ls) => forall i | 0 <= i < |ls| :: ValidLine(ls[i])
  }

  predicate ValidTopology(t: WorldTopology) {
    forall i | 0 <= i < |t.features| :: ValidFeature(t.features[i])
  }

  /** One position: at least two numbers, read as (longitude, latitude),
      and accepted by `NewGeoCoord`. */
  function ConvertPosition(p: GeoJson.Position): (r: Option<GeoCoord>)
    ensures r.Some? <==> |p| >= 2 && AcceptedLatLon(p[1], p[0])
    ensures r.Some? ==> Finite(r.value.lat) == p[1] && Finite(r.value.lon) == p[0]
    ensures r.Some? ==> ValidCoord(r.value)
  {
    if |p| >= 2 then NewGeoCoord(p[1], p[0]).ToOption() else None
  }

  /** The singleton list of a converted position, or nothing. */
  function Kept(o: Option<GeoCoord>): seq<GeoCoord> {
    match o
    case Some(c) => [c]
    case None => []
  }

  /** The `filter_map` over a position list. */
  function ConvertPositions(ps: seq<GeoJson.Position>): (r: seq<GeoCoord>)
    ensures |r| <= |ps|
    ensures ValidLine(r)
    decreases |ps|
  {
    if |ps| == 0 then [] else Kept(ConvertPosition(ps[0])) + ConvertPositions(ps[1..])
  }

  /** Positions are converted independently and their order is kept. */
  lemma {:induction false} ConvertPositionsAppend(a: seq<GeoJson.Position>, b: seq<GeoJson.Position>)
    ensures ConvertPositions(a + b) == ConvertPositions(a) + ConvertPositions(b)
    decreases |a|
  {
    if |a| == 0 {
      assert a + b == b;
    } else {
      assert (a + b)[1..] == a[1..] + b;
      ConvertPositionsAppend(a[1..], b);
    }
  }

  /** A single position contributes its coordinate or nothing. */
  lemma ConvertPositionsSingle(p: GeoJson.Position)
    ensures ConvertPositions([p]) == Kept(ConvertPosition(p))
  {
    assert [p][1..] == [];
  }

  /** When every position is acceptable, nothing is dropped and position
      `i` becomes point `i`. */
  lemma {:induction false} ConvertPositionsAllAccepted(ps: seq<GeoJson.Position>)
    requires forall i | 0 <= i < |ps| :: ConvertPosition(ps[i]).Some?
    ensures |ConvertPositions(ps)| == |ps|
    ensures forall i | 0 <= i < |ps| :: ConvertPositions(ps)[i] == ConvertPosition(ps[i]).value
    decreases |ps|
  {
    if |ps| > 0 {
      ConvertPositionsAllAccepted(ps[1..]);
      var r := ConvertPositions(ps);
      assert r == [ConvertPosition(ps[0]).value] + ConvertPositions(ps[1..]);
      forall i | 0 <= i < |ps|
        ensures r[i] == ConvertPosition(ps[i]).value
      {
        if i > 0 {
          assert ps[1..][i - 1] == ps[i];
        }
      }
    }
  }

  /** The `map` over a list of lines: one output line per input line. */
  function ConvertLines(lines: seq<seq<GeoJson.Position>>): (r: seq<seq<GeoCoord>>)
    ensures |r| == |lines|
    ensures forall i | 0 <= i < |r| :: r[i] == ConvertPositions(lines[i])
    decreases |lines|
  {
    if |lines| == 0 then [] else [ConvertPositions(lines[0])] + ConvertLines(lines[1..])
  }

  /** The `flat_map` over polygons: all rings of all polygons, in order. */
  function ConvertPolygons(polys: seq<seq<seq<GeoJson.Position>>>): (r: seq<seq<GeoCoord>>)
    ensures |r| == SumLengths(polys)
    decreases |polys|
  {
    if |polys| == 0 then []
    else ConvertPolygons(polys[..|polys| - 1]) + ConvertLines(polys[|polys| - 1])
  }

  /** `ConvertPolygons` is the flat map of `ConvertLines`. */
  lemma {:induction false} ConvertPolygonsIsFlatten(polys: seq<seq<seq<GeoJson.Position>>>)
    ensures ConvertPolygons(polys) == Flatten(Map(polys, ConvertLines))
    decreases |polys|
  {
    if |polys| > 0 {
      ConvertPolygonsIsFlatten(polys[..|polys| - 1]);
      FlattenMapLast(polys, ConvertLines);
    }
  }

  /** Ring `j` of polygon `k` becomes line `SumLengths(polys[..k]) + j`. */
  lemma {:induction false} ConvertPolygonsIndex(polys: seq<seq<seq<GeoJson.Position>>>, k: nat, j: nat)
    requires k < |polys| && j < |polys[k]|
    ensures SumLengths(polys[..k]) + j < |ConvertPolygons(polys)|
    ensures ConvertPolygons(polys)[SumLengths(polys[..k]) + j] == ConvertPositions(polys[k][j])
    decreases |polys|
  {
    var n := |polys|;
    var init := polys[..n - 1];
    var done := ConvertPolygons(init);
    var last := ConvertLines(polys[n - 1]);
    assert ConvertPolygons(polys) == done + last;
    if k < n - 1 {
      assert init[..k] == polys[..k];
      ConvertPolygonsIndex(init, k, j);
      assert ConvertPolygons(polys)[SumLengths(polys[..k]) + j] == done[SumLengths(polys[..k]) + j];
    } else {
      assert polys[..k] == init;
      assert |done| == SumLengths(polys[..k]);
      assert ConvertPolygons(polys)[SumLengths(polys[..k]) + j] == last[j];
    }
  }

  /** The positions a line-bearing geometry holds; zero for the kinds the
      normaliser ignores. */
  function LinearPositionCount(g: GeoJson.GeometryValue): nat {
    match g
    case LineString(ps) => |ps|
    case MultiLineString(ls) => SumLengths(ls)
    case Polygon(rs) => SumLengths(rs)
    case MultiPolygon(polys) => PolygonPositionCount(polys)
    case _ => 0
  }

  function PolygonPositionCount(polys: seq<seq<seq<GeoJson.Position>>>): nat
    decreases |polys|
  {
    if |polys| == 0 then 0
    else PolygonPositionCount(polys[..|polys| - 1]) + SumLengths(polys[|polys| - 1])
  }

  lemma ConvertLinesPoints(lines: seq<seq<GeoJson.Position>>)
    ensures SumLengths(ConvertLines(lines)) <= SumLengths(lines)
  {
    SumLengthsMonotone(ConvertLines(lines), lines);
  }

  lemma {:induction false} ConvertPolygonsPoints(polys: seq<seq<seq<GeoJson.Position>>>)
    ensures SumLengths(ConvertPolygons(polys)) <= PolygonPositionCount(polys)
    decreases |polys|
  {
    if |polys| > 0 {
      var init := polys[..|polys| - 1];
      ConvertPolygonsPoints(init);
      ConvertLinesPoints(polys[|polys| - 1]);
      SumLengthsAppend(ConvertPolygons(init), ConvertLines(polys[|polys| - 1]));
    }
  }

  /** The number of lines a geometry kind should produce. */
  function InputLineCount(g: GeoJson.GeometryValue): nat {
    match g
    case LineString(_) => 1
    case MultiLineString(ls) => |ls|
    case Polygon(rs) => |rs|
    case MultiPolygon(polys) => SumLengths(polys)
    case _ => 0
  }

  /** The lines of a normalised feature: a LineString is one line. */
  function LinesOf(f: Feature): seq<seq<GeoCoord>> {
    match f.geometry
    case LineString(ps) => [ps]
    case MultiLineString(ls) => ls
  }

  lemma LinesOfPoints(f: Feature)
    ensures SumLengths(LinesOf(f)) == match f.geometry
      case LineString(points) => |points|
      case MultiLineString(lines) => SumLengths(lines)
  {
    if f.geometry.LineString? {
      SumLengthsSingle(f.geometry.points);
    }
  }

  /** A LineString stays one line of its kept positions. */
  function NormaliseLineString(coords: seq<GeoJson.Position>): (f: Feature)
    ensures ValidFeature(f) && f.geometry == LineString(ConvertPositions(coords))
    ensures |LinesOf(f)| == 1 && SumLengths(LinesOf(f)) <= |coords|
  {
    SumLengthsSingle(ConvertPositions(coords));
    Feature(LineString(ConvertPositions(coords)))
  }

  /** The lines of a MultiLineString, or the rings of a Polygon, each
      become one line. */
  function NormaliseLines(lines: seq<seq<GeoJson.Position>>): (f: Feature)
    ensures ValidFeature(f) && f.geometry.MultiLineString?
    ensures |LinesOf(f)| == |lines| && SumLengths(LinesOf(f)) <= SumLengths(lines)
    ensures forall i | 0 <= i < |lines| :: f.geometry.lines[i] == ConvertPositions(lines[i])
  {
    ConvertLinesPoints(lines);
    Feature(MultiLineString(ConvertLines(lines)))
  }

  /** All rings of all polygons of a MultiPolygon become the lines of one
      MultiLineString. */
  function NormalisePolygons(polys: seq<seq<seq<GeoJson.Position>>>): (f: Feature)
    ensures ValidFeature(f) && f.geometry == MultiLineString(ConvertPolygons(polys))
    ensures |LinesOf(f)| == SumLengths(polys) && SumLengths(LinesOf(f)) <= PolygonPositionCount(polys)
  {
    ConvertPolygonsPoints(polys);
    ConvertPolygonsValid(polys);
    Feature(MultiLineString(ConvertPolygons(polys)))
  }

  /** `parse_geometry`: the four line-bearing kinds are normalised; every
      other kind is a `TopologyParseError`. */
  function ParseGeometry(g: GeoJson.GeometryValue): (r: Result<Feature, CoreError>)
    ensures r.Err? <==> !(g.LineString? || g.MultiLineString? || g.Polygon? || g.MultiPolygon?)
    ensures r.Err? ==> r.error == TopologyParseError(UnsupportedGeometryType)
    ensures r.Ok? ==> ValidFeature(r.value)
    ensures r.Ok? ==> |LinesOf(r.value)| == InputLineCount(g)
    ensures r.Ok? ==> SumLengths(LinesOf(r.value)) <= LinearPositionCount(g)
    ensures g.LineString? ==> r == Ok(Feature(LineString(ConvertPositions(g.coordinates))))
    ensures g.MultiLineString? ==>
              && r.Ok? && r.value.geometry.MultiLineString?
              && forall i | 0 <= i < |g.lines| :: r.value.geometry.lines[i] == ConvertPositions(g.lines[i])
    ensures g.Polygon? ==>
              && r.Ok? && r.value.geometry.MultiLineString?
              && forall i | 0 <= i < |g.rings| :: r.value.geometry.lines[i] == ConvertPositions(g.rings[i])
    ensures g.MultiPolygon? ==> r == Ok(Feature(MultiLineString(ConvertPolygons(g.polygons))))
  {
    match g
    case LineString(coords) => Ok(NormaliseLineString(coords))
    case MultiLineString(lines) => Ok(NormaliseLines(lines))
    case Polygon(rings) => Ok(NormaliseLines(rings))
    case MultiPolygon(polys) => Ok(NormalisePolygons(polys))
    case _ => Err(TopologyParseError(UnsupportedGeometryType))
  }

  lemma {:induction false} ConvertPolygonsValid(polys: seq<seq<seq<GeoJson.Position>>>)
    ensures forall i | 0 <= i < |ConvertPolygons(polys)| :: ValidLine(ConvertPolygons(polys)[i])
    decreases |polys|
  {
    if |polys| > 0 {
      ConvertPolygonsValid(polys[..|polys| - 1]);
    }
  }

  /** The features that survive: those with a geometry that parses. */
  function KeptFeature(f: GeoJson.Feature): (r: seq<Feature>)
    ensures |r| <= 1
    ensures |r| == 1 <==> f.geometry.Some? && ParseGeometry(f.geometry.value).Ok?
    ensures |r| == 1 ==> r[0] == ParseGeometry(f.geometry.value).value
  {
    match f.geometry
    case None => []
    case Some(g) =>
      match ParseGeometry(g)
      case Ok(feature) => [feature]
      case Err(_) => []
  }

  function CollectFeatures(fs: seq<GeoJson.Feature>): (r: seq<Feature>)
    ensures |r| <= |fs|
    decreases |fs|
  {
    if |fs| == 0 then [] else CollectFeatures(fs[..|fs| - 1]) + KeptFeature(fs[|fs| - 1])
  }

  /** `CollectFeatures` is the flat map of `KeptFeature`: the two `filter_map`s. */
  lemma {:induction false} CollectFeaturesIsFlatten(fs: seq<GeoJson.Feature>)
    ensures CollectFeatures(fs) == Flatten(Map(fs, KeptFeature))
    decreases |fs|
  {
    if |fs| > 0 {
      CollectFeaturesIsFlatten(fs[..|fs| - 1]);
      FlattenMapLast(fs, KeptFeature);
    }
  }

  /** Features are handled independently and keep their order. */
  lemma CollectFeaturesAppend(a: seq<GeoJson.Feature>, b: seq<GeoJson.Feature>)
    ensures CollectFeatures(a + b) == CollectFeatures(a) + CollectFeatures(b)
  {
    CollectFeaturesIsFlatten(a);
    CollectFeaturesIsFlatten(b);
    CollectFeaturesIsFlatten(a + b);
    FlattenMapAppend(a, b, KeptFeature);
  }

  /** When every feature has a supported geometry, none is dropped and
      feature `i` becomes feature `i`. */
  lemma {:induction false} CollectFeaturesAllSupported(fs: seq<GeoJson.Feature>)
    requires forall i | 0 <= i < |fs| :: fs[i].geometry.Some? && ParseGeometry(fs[i].geometry.value).Ok?
    ensures |CollectFeatures(fs)| == |fs|
    ensures forall i | 0 <= i < |fs| :: CollectFeatures(fs)[i] == ParseGeometry(fs[i].geometry.value).value
    decreases |fs|
  {
    if |fs| > 0 {
      var n := |fs|;
      var init := fs[..n - 1];
      CollectFeaturesAllSupported(init);
      var kept := KeptFeature(fs[n - 1]);
      assert |kept| == 1;
      var r := CollectFeatures(fs);
      var done := CollectFeatures(init);
      assert r == done + kept;
      assert |done| == n - 1;
      forall i | 0 <= i < n
        ensures r[i] == ParseGeometry(fs[i].geometry.value).value
      {
        if i < n - 1 {
          assert r[i] == done[i];
          assert init[i] == fs[i];
        } else {
          assert r[i] == kept[0];
        }
      }
    }
  }

  lemma {:induction false} CollectFeaturesValid(fs: seq<GeoJson.Feature>)
    ensures ValidTopology(WorldTopology(CollectFeatures(fs)))
    decreases |fs|
  {
    if |fs| > 0 {
      CollectFeaturesValid(fs[..|fs| - 1]);
    }
  }

  /** `WorldTopology::from_geojson` on a parsed document: only a
      FeatureCollection is accepted. */
  function FromGeoJson(doc: GeoJson.Document): (r: Result<WorldTopology, CoreError>)
    ensures r.Err? <==> !doc.FeatureCollection?
    ensures r.Err? ==> r.error == TopologyParseError(ExpectedFeatureCollection)
    ensures r.Ok? ==> ValidTopology(r.value) && |r.value.features| <= |doc.features|
    ensures r.Ok? ==> r.value.features == Flatten(Map(doc.features, KeptFeature))
  {
    match doc
    case FeatureCollection(fs) =>
      CollectFeaturesValid(fs);
      CollectFeaturesIsFlatten(fs);
      Ok(WorldTopology(CollectFeatures(fs)))
    case _ =>
      Err(TopologyParseError(ExpectedFeatureCollection))
  }

  /** All lines of a topology, in feature order and then line order. */
  function AllLines(fs: seq<Feature>): seq<seq<GeoCoord>>
    decreases |fs|
  {
    if |fs| == 0 then [] else AllLines(fs[..|fs| - 1]) + LinesOf(fs[|fs| - 1])
  }

  /** `line_count`: one per LineString, the line count of each
      MultiLineString. */
  function LineCount(t: WorldTopology): (n: nat)
    ensures n == |AllLines(t.features)|
    decreases |t.features|
  {
    if |t.features| == 0 then 0
    else
      var last := t.features[|t.features| - 1];
      LineCount(WorldTopology(t.features[..|t.features| - 1])) +
        match last.geometry
        case LineString(_) => 1
        case MultiLineString(lines) => |lines|
  }

  /** `point_count`: the points of every line. */
  function PointCount(t: WorldTopology): (n: nat)
    ensures n == SumLengths(AllLines(t.features))
    decreases |t.features|
  {
    var fs := t.features;
    if |fs| == 0 then 0
    else
      var last := fs[|fs| - 1];
      SumLengthsAppend(AllLines(fs[..|fs| - 1]), LinesOf(last));
      LinesOfPoints(last);
      PointCount(WorldTopology(fs[..|fs| - 1])) +
        match last.geometry
        case LineString(points) => |points|
        case MultiLineString(lines) => SumLengths(lines)
  }

  /** The positions a collection's features hold in line-bearing
      geometries. */
  function InputPositionCount(fs: seq<GeoJson.Feature>): nat
    decreases |fs|
  {
    if |fs| == 0 then 0
    else
      var last := fs[|fs| - 1];
      InputPositionCount(fs[..|fs| - 1]) +
        (if last.geometry.Some? then LinearPositionCount(last.geometry.value) else 0)
  }

  /** Normalisation never invents points. */
  lemma {:induction false} PointCountBounded(fs: seq<GeoJson.Feature>)
    ensures PointCount(WorldTopology(CollectFeatures(fs))) <= InputPositionCount(fs)
    decreases |fs|
  {
    if |fs| > 0 {
      var init := fs[..|fs| - 1];
      var last := fs[|fs| - 1];
      var before := CollectFeatures(init);
      var kept := KeptFeature(last);
      assert CollectFeatures(fs) == before + kept;
      PointCountBounded(init);
      assert SumLengths(AllLines(before)) <= InputPositionCount(init);
      AllLinesAppend(before, kept);
      SumLengthsAppend(AllLines(before), AllLines(kept));
      KeptFeaturePoints(last);
      assert SumLengths(AllLines(before + kept)) ==
             SumLengths(AllLines(before)) + SumLengths(AllLines(kept));
    }
  }

  lemma KeptFeaturePoints(f: GeoJson.Feature)
    ensures SumLengths(AllLines(KeptFeature(f))) <=
            (if f.geometry.Some? then LinearPositionCount(f.geometry.value) else 0)
  {
    var kept := KeptFeature(f);
    if |kept| == 1 {
      assert kept[..0] == [];
      assert AllLines(kept) == LinesOf(kept[0]);
    }
  }

  /** `AllLines` is the flat map of `LinesOf`. */
  lemma {:induction false} AllLinesIsFlatten(fs: seq<Feature>)
    ensures AllLines(fs) == Flatten(Map(fs, LinesOf))
    decreases |fs|
  {
    if |fs| > 0 {
      AllLinesIsFlatten(fs[..|fs| - 1]);
      FlattenMapLast(fs, LinesOf);
    }
  }

  lemma AllLinesAppend(a: seq<Feature>, b: seq<Feature>)
    ensures AllLines(a + b) == AllLines(a) + AllLines(b)
  {
    AllLinesIsFlatten(a);
    AllLinesIsFlatten(b);
    AllLinesIsFlatten(a + b);
    FlattenMapAppend(a, b, LinesOf);
  }

  /** A collection with one LineString of three good points: one line,
      three points. */
  lemma OneLineStringExample()
    ensures var doc := GeoJson.FeatureCollection([GeoJson.Feature(Some(GeoJson.LineString(
              [[Finite(0.0), Finite(0.0)], [Finite(10.0), Finite(5.0)], [Finite(20.0), Finite(10.0)]])))]);
            && FromGeoJson(doc).Ok?
            && LineCount(FromGeoJson(doc).value) == 1
            && PointCount(FromGeoJson(doc).value) == 3
  {
    var ps: seq<GeoJson.Position> := [[Finite(0.0), Finite(0.0)], [Finite(10.0), Finite(5.0)], [Finite(20.0), Finite(10.0)]];
    assert ConvertPosition(ps[0]) == Some(GeoCoord(0.0, 0.0));
    assert ConvertPosition(ps[1]) == Some(GeoCoord(5.0, 10.0));
    assert ConvertPosition(ps[2]) == Some(GeoCoord(10.0, 20.0));
    ConvertPositionsAllAccepted(ps);
    var points := ConvertPositions(ps);
    assert |points| == 3;
    var f := GeoJson.Feature(Some(GeoJson.LineString(ps)));
    assert [f][..0] == [];
    assert KeptFeature(f) == [Feature(LineString(points))];
    assert CollectFeatures([f]) == [Feature(LineString(points))];
    var t := WorldTopology([Feature(LineString(points))]);
    assert FromGeoJson(GeoJson.FeatureCollection([f])) == Ok(t);
    assert t.features[..0] == [];
  }

  /** A Polygon with one ring of four good points: one line, four points. */
  lemma OneRingPolygonExample()
    ensures var doc := GeoJson.FeatureCollection([GeoJson.Feature(Some(GeoJson.Polygon(
              [[[Finite(0.0), Finite(0.0)], [Finite(10.0), Finite(0.0)],
                [Finite(10.0), Finite(10.0)], [Finite(0.0), Finite(0.0)]]])))]);
            && FromGeoJson(doc).Ok?
            && LineCount(FromGeoJson(doc).value) == 1
            && PointCount(FromGeoJson(doc).value) == 4
  {
    var ring: seq<GeoJson.Position> := [[Finite(0.0), Finite(0.0)], [Finite(10.0), Finite(0.0)],
                                        [Finite(10.0), Finite(10.0)], [Finite(0.0), Finite(0.0)]];
    assert ConvertPosition(ring[0]) == Some(GeoCoord(0.0, 0.0));
    assert ConvertPosition(ring[1]) == Some(GeoCoord(0.0, 10.0));
    assert ConvertPosition(ring[2]) == Some(GeoCoord(10.0, 10.0));
    assert ConvertPosition(ring[3]) == Some(GeoCoord(0.0, 0.0));
    ConvertPositionsAllAccepted(ring);
    var points := ConvertPositions(ring);
    assert |points| == 4;
    var f := GeoJson.Feature(Some(GeoJson.Polygon([ring])));
    assert [f][..0] == [];
    var lines := ConvertLines([ring]);
    assert lines == [points];
    var kept := Feature(MultiLineString(lines));
    assert KeptFeature(f) == [kept];
    assert CollectFeatures([f]) == [kept];
    var t := WorldTopology([kept]);
    assert FromGeoJson(GeoJson.FeatureCollection([f])) == Ok(t);
    assert t.features[..0] == [];
    assert [points][..0] == [];
    assert LinesOf(kept) == [points];
  }
}

=== FILE: world_renderer.dfy ===
/** The vertex flattening of `wmc-render/src/world_renderer.rs`
    (`build_vertices`, `add_line` and the `vertex_count` computation): a
    topology and a projection give a flat list of line-segment endpoints,
    two floats per endpoint, four per segment. */
module WorldRenderer {
  import opened Seqs
  import opened Projection
  import opened Topology

  /** Any projection, as the `&dyn Projection` the renderer is given. */
  type Projector = GeoCoord -> ProjectedCoord

  /** `len.saturating_sub(1)`: the number of consecutive point pairs. */
  function SegmentCount(n: nat): nat {
    if n == 0 then 0 else n - 1
  }

  /** The four floats of the segment from `p` to `q`. */
  function Segment(p: GeoCoord, q: GeoCoord, project: Projector): seq<real> {
    [project(p).x, project(p).y, project(q).x, project(q).y]
  }

  /** The floats one line contributes: its segments in order. */
  function LineVertices(points: seq<GeoCoord>, project: Projector): (v: seq<real>)
    ensures |v| == 4 * SegmentCount(|points|)
    decreases |points|
  {
    if |points| < 2 then []
    else
      LineVertices(points[..|points| - 1], project) +
        Segment(points[|points| - 2], points[|points| - 1], project)
  }

  /** Segment `i` of a line joins its points `i` and `i + 1`. */
  lemma {:induction false} LineVerticesSegment(points: seq<GeoCoord>, project: Projector, i: nat)
    requires i < SegmentCount(|points|)
    ensures LineVertices(points, project)[4 * i .. 4 * i + 4] == Segment(points[i], points[i + 1], project)
    decreases |points|
  {
    var n := |points|;
    var init := points[..n - 1];
    var v := LineVertices(points, project);
    if i < n - 2 {
      LineVerticesSegment(init, project, i);
      assert v[4 * i .. 4 * i + 4] == LineVertices(init, project)[4 * i .. 4 * i + 4];
    } else {
      assert |LineVertices(init, project)| == 4 * i;
    }
  }

  /** `add_line`: appends the segments of `points` to `vertices`. */
  method AddLine(vertices: seq<real>, points: seq<GeoCoord>, project: Projector) returns (out: seq<real>)
    ensures out == vertices + LineVertices(points, project)
    ensures |out| == |vertices| + 4 * SegmentCount(|points|)
  {
    out := vertices;
    var n := SegmentCount(|points|);
    var i := 0;
    while i < n
      invariant 0 <= i <= n
      invariant |points| == 0 ==> out == vertices
      invariant |points| > 0 ==> out == vertices + LineVertices(points[..i + 1], project)
    {
      var p1 := project(points[i]);
      var p2 := project(points[i + 1]);
      ghost var prefix := points[..i + 2];
      assert prefix[..i + 1] == points[..i + 1];
      out := out + [p1.x, p1.y, p2.x, p2.y];
      i := i + 1;
    }
    if |points| > 0 {
      assert points[..i + 1] == points;
    }
  }

  /** The floats of a list of lines, one after the other. */
  function LinesVertices(lines: seq<seq<GeoCoord>>, project: Projector): (v: seq<real>)
    ensures |v| == 4 * TotalSegments(lines)
    ensures |v| <= 4 * SumLengths(lines)
    decreases |lines|
  {
    if |lines| == 0 then []
    else LinesVertices(lines[..|lines| - 1], project) + LineVertices(lines[|lines| - 1], project)
  }

  /** The number of segments of a list of lines. */
  function TotalSegments(lines: seq<seq<GeoCoord>>): nat
    decreases |lines|
  {
    if |lines| == 0 then 0 else TotalSegments(lines[..|lines| - 1]) + SegmentCount(|lines[|lines| - 1]|)
  }

  /** `LinesVertices` is the flat map of `LineVertices`. */
  lemma {:induction false} LinesVerticesIsFlatten(lines: seq<seq<GeoCoord>>, project: Projector)
    ensures LinesVertices(lines, project) == Flatten(Map(lines, l => LineVertices(l, project)))
    decreases |lines|
  {
    if |lines| > 0 {
      LinesVerticesIsFlatten(lines[..|lines| - 1], project);
      FlattenMapLast(lines, l => LineVertices(l, project));
    }
  }

  lemma LinesVerticesAppend(a: seq<seq<GeoCoord>>, b: seq<seq<GeoCoord>>, project: Projector)
    ensures LinesVertices(a + b, project) == LinesVertices(a, project) + LinesVertices(b, project)
  {
    LinesVerticesIsFlatten(a, project);
    LinesVerticesIsFlatten(b, project);
    LinesVerticesIsFlatten(a + b, project);
    FlattenMapAppend(a, b, l => LineVertices(l, project));
  }

  /** `build_vertices`: `add_line` over every line, in feature order and
      then line order, so no segment joins two lines. */
  method BuildVertices(t: WorldTopology, project: Projector) returns (vertices: seq<real>)
    ensures vertices == LinesVertices(AllLines(t.features), project)
    ensures |vertices| == 4 * TotalSegments(AllLines(t.features))
    ensures |vertices| <= 4 * PointCount(t)
  {
    vertices := [];
    var k := 0;
    while k < |t.features|
      invariant 0 <= k <= |t.features|
      invariant vertices == LinesVertices(AllLines(t.features[..k]), project)
    {
      assert t.features[..k + 1][..k] == t.features[..k];
      LinesVerticesAppend(AllLines(t.features[..k]), LinesOf(t.features[k]), project);
      vertices := AddFeature(vertices, t.features[k], project);
      k := k + 1;
    }
    assert t.features[..k] == t.features;
  }

  /** One iteration of `build_vertices`: the lines of one feature. */
  method AddFeature(vertices: seq<real>, f: Feature, project: Projector) returns (out: seq<real>)
    ensures out == vertices + LinesVertices(LinesOf(f), project)
  {
    match f.geometry {
      case LineString(points) =>
        out := AddLine(vertices, points, project);
        assert [points][..0] == [];
      case MultiLineString(lines) =>
        out := vertices;
        var j := 0;
        while j < |lines|
          invariant 0 <= j <= |lines|
          invariant out == vertices + LinesVertices(lines[..j], project)
        {
          assert lines[..j + 1][..j] == lines[..j];
          out := AddLine(out, lines[j], project);
          j := j + 1;
        }
        assert lines[..j] == lines;
    }
  }

  /** `(vertices.len() / 2) as i32`: the cast keeps the low 32 bits and
      reads them as a two's-complement number. */
  function VertexCount(floats: nat): (c: int)
    ensures -0x8000_0000 <= c < 0x8000_0000
    ensures (floats / 2 - c) % 0x1_0000_0000 == 0
    ensures floats / 2 < 0x8000_0000 ==> c == floats / 2
  {
    var m := (floats / 2) % 0x1_0000_0000;
    if m < 0x8000_0000 then m else m - 0x1_0000_0000
  }

  /** The draw call covers two vertices per segment, as long as that count
      fits in an `i32`. */
  lemma VertexCountOfBuild(t: WorldTopology, project: Projector, vertices: seq<real>)
    requires vertices == LinesVertices(AllLines(t.features), project)
    requires 2 * TotalSegments(AllLines(t.features)) < 0x8000_0000
    ensures |vertices| % 4 == 0
    ensures VertexCount(|vertices|) == 2 * TotalSegments(AllLines(t.features))
  {
    var segments := TotalSegments(AllLines(t.features));
    assert |vertices| == 4 * segments;
    assert |vertices| / 2 == 2 * segments;
  }

  /** Feeding the equirectangular projection a valid topology keeps every
      endpoint on the surface: even positions in `[0, width]`, odd ones in
      `[0, height]`. */
  lemma {:induction false} LineVerticesOnScreen(points: seq<GeoCoord>, p: Equirectangular, i: nat)
    requires p.width > 0.0 && p.height > 0.0 && ValidLine(points)
    requires i < |LineVertices(points, c => Project(p, c))|
    ensures i % 2 == 0 ==> 0.0 <= LineVertices(points, c => Project(p, c))[i] <= p.width
    ensures i % 2 == 1 ==> 0.0 <= LineVertices(points, c => Project(p, c))[i] <= p.height
    decreases |points|
  {
    var project: Projector := c => Project(p, c);
    var n := |points|;
    var init := points[..n - 1];
    var prev := LineVertices(init, project);
    if i < |prev| {
      LineVerticesOnScreen(init, p, i);
    } else {
      var a := points[n - 2];
      var b := points[n - 1];
      assert ValidCoord(a) && ValidCoord(b);
      var j := i - |prev|;
      var qa := Project(p, a);
      var qb := Project(p, b);
      assert LineVertices(points, project)[i] == [qa.x, qa.y, qb.x, qb.y][j];
      ParityShift(SegmentCount(n - 1), j);
    }
  }

  lemma ParityShift(m: nat, j: nat)
    ensures (4 * m + j) % 2 == j % 2
  {
    assert 4 * m + j == 2 * (2 * m) + j;
  }
}
